=== FILE: README.md ===
# acku-masterclass deck core in Dafny

This is a model of the core of the acku-masterclass presentation: a single-page React slide deck.
It covers:

- the deck store (`slideData.ts`): forty slide records and the four-module registry;
- the presentation controller (`Presentation.tsx`). This covers `goToSlide` with its two-phase GSAP transition, the `isTransitioning` guard, the overview, keyboard, click-zone and swipe input, and the dispatch from a slide's `type` to its renderer;
- the keyboard map (`useKeyboardNav.ts`);
- the one-shot entrance guard (`useSlideAnimation.ts` and its copies in the renderers);
- the logic inside the four renderers that have some: list, story, stat and visualization;
- the risk-framework visualization's expand/collapse state;
- the progress bar.

Everything is pure functions over immutable datatypes.

- **React.** State and refs are record fields. Effects are explicit commits, or the `LayoutEffect` event.
- **GSAP.** The animation library is reduced to the one tween in flight and the end values it leaves on the slide container. Its completion callbacks are the events `ExitDone` and `EnterDone`.
- **The DOM.** Whether the slide container is attached is an environment flag, set by the `SetContainer` event.

Modules:

| module | file | models |
|---|---|---|
| `Wrappers` | wrappers.dfy | `Option` |
| `SlideData` | slide_data.dfy | slide records, the deck constant, the module registry |
| `SlideAnimation` | slide_animation.dfy | the entrance/reset effects of one renderer instance; counter text |
| `KeyboardNav` | keyboard_nav.dfy | `handleKeyDown` |
| `Presentation` | presentation.dfy | navigation and transition state machine, input adapters |
| `SlideRenderer` | slide_renderer.dfy | the `type` switch |
| `ListSlide` | list_slide.dfy | `splitInHalf`, `parseItem`, `ItemText`, layouts, icon cycling, entrance |
| `StorySlide` | story_slide.dfy | `extractSpotlightValue` (the regular expression), the story layouts |
| `StatSlide` | stat_slide.dfy | prefix placement, number text, the count-up's final text, grid columns |
| `VisualizationSlide` | visualization_slide.dfy | `visualizationMap` lookup, child props |
| `RiskFramework` | risk_framework.dfy | expanded-card state and its reset |
| `ProgressBar` | progress_bar.dfy | width, counter, module label |
| `DeckInvariants` | deck_invariants.dfy | facts about the deck constant and what the renderers get from it |

### Notes on the code's behaviour

- **Home and End.** The design describes these keys as jumping to the first and last slide. The keyboard handler only calls `preventDefault` for them (`useKeyboardNav.ts:31-36`), and the model follows the code.
- **No `layout` or `animation` on deck slides.** The `Slide` interface (`slideData.ts:15-29`) declares no such fields, so every deck slide renders with its renderer's default layout.
  - As a result, the story renderer's `quote-full` branch is never reached: that layout is routed to the quote renderer first (`StorySlide.QuoteFullUnreachable`).
- **Synchronous animation bodies.** GSAP's `context.add` runs its function at once. The no-container checks inside the transition and enter bodies therefore see the same container state as the checks just before them, and the model folds them together.
- **Arrow keys in the overview.** The hooks run before the overview's early return, so arrow keys still navigate while the overview is shown.
- **The stuck state.** When the container is absent at the layout effect after the swap, the effect returns early and `isTransitioning` stays set for good (`Presentation.Stuck`).
  - Whether a browser schedule reaches it is open. The exit's `onComplete` calls `setCurrentSlide` from GSAP's ticker, at default priority. A keydown `o` or an overview click before that render is flushed is handled at discrete priority, so React may commit the overview first. The swap would then commit with the container unmounted.
  - The model lets `SetContainer` interleave with any event, so it admits every such schedule and perhaps some the browser never produces.
- **A remounted container.** Closing the overview mounts a new container element without the animation code's inline styles (`Presentation.tsx:280-288`). If this happens while the enter is awaited, the incoming slide shows at full opacity until the enter tween starts (`Presentation.RemountShowsIncomingSlide`). Otherwise the parked, hidden container stays parked (`Presentation.ParkedUntilRemount`).

## Model

| member | source | states |
|---|---|---|
| SlideAnimation.Render | src/hooks/useSlideAnimation.ts:10-67 | one commit starts the entrance exactly when the entrance effect re-runs with the slide active, the container attached and `hasAnimated` clear; a started entrance sets `hasAnimated`; an inactive commit leaves it clear; the guard's reachable-state invariant is kept |
| SlideAnimation.AnimatedStaysQuiet | src/hooks/useSlideAnimation.ts:11-13 | once the entrance ran, commits that keep the slide active never start it again |
| SlideAnimation.ActiveRunFiresAtMostOnce | src/hooks/useSlideAnimation.ts:10-60 | while the slide stays active the entrance starts at most once, even when the other dependency (slide id, layout) changes |
| SlideAnimation.ActivationFiresOnce | src/hooks/useSlideAnimation.ts:10-67 | from a valid guard, an all-active run whose first commit has the container starts the entrance exactly once |
| SlideAnimation.DeactivationRearms | src/hooks/useSlideAnimation.ts:62-67 | an inactive commit clears `hasAnimated`, so the next visit may animate |
| SlideAnimation.FiresAppend | src/hooks/useSlideAnimation.ts:10-67 | entrance counts add up over concatenated commit sequences |
| SlideAnimation.RunKeepsValid | src/hooks/useSlideAnimation.ts:10-67 | any commit sequence keeps the guard's invariant |
| SlideAnimation.ReactivationFiresAgain | src/hooks/useSlideAnimation.ts:62-67 | after leaving and coming back (container attached) the entrance runs exactly once more |
| SlideAnimation.VisitFiresOnce | src/components/Presentation.tsx:283-288 | a visit mounts a fresh instance keyed by the slide id and active; the entrance runs exactly once whatever the container does afterwards |
| SlideAnimation.CounterText | src/hooks/useSlideAnimation.ts:35-52 | the count-up text is the prefix attribute, the number, then the suffix attribute, absent attributes reading as empty |
| KeyboardNav.HandleKeyDown | src/hooks/useKeyboardNav.ts:17-40 | next exactly for ArrowRight/Space/PageDown, previous exactly for ArrowLeft/PageUp, default prevented exactly for those and Home/End, Home/End navigate nowhere, all other keys untouched |
| Presentation.Direction | src/components/Presentation.tsx:78 | +1 exactly when moving to a later slide, otherwise -1 |
| Presentation.GoToSlide | src/components/Presentation.tsx:74-125 | unchanged state exactly when the guard rejects (out of range, busy, same slide); with no container an immediate swap releasing the guard; otherwise the guard set and the exit tween towards the target started, slide unchanged |
| Presentation.ClassifySwipe | src/components/Presentation.tsx:173-185 | a swipe exactly when the horizontal travel exceeds 50 px and twice the vertical; next exactly when it also goes left |
| Presentation.InitialInv | src/components/Presentation.tsx:52-54 | the mount state satisfies the transition invariant |
| Presentation.StepKeepsInv | src/components/Presentation.tsx:74-208 | every event keeps the invariant: index in range, at most one transition phase, guard held during each phase and while the enter is awaited, a released guard with no phase active |
| Presentation.ParkedUntilRemount | src/components/Presentation.tsx:116-129 | once the exit has parked the container hidden at an entry offset, it stays parked while the enter is awaited under every event except a newly mounted container |
| Presentation.RemountShowsIncomingSlide | src/components/Presentation.tsx:280-288 | a container mounted while the enter is awaited shows the incoming slide at full opacity, before any enter tween |
| Presentation.EnterPhaseReleasedOnlyByEnterDone | src/components/Presentation.tsx:127-154 | while the enter is awaited or its tween runs, the only event that releases the guard is the enter tween's completion |
| Presentation.RunKeepsInv | src/components/Presentation.tsx:74-208 | any event sequence keeps the invariant and the index in range |
| Presentation.CurrentStaysInDeck | src/components/Presentation.tsx:52-125 | from mount, whatever the events, the current slide stays within the deck |
| Presentation.BoundaryNoOps | src/components/Presentation.tsx:75-76 | indices -1 and n are ignored; no wrap-around at the first or last slide |
| Presentation.OffsetsOppose | src/components/Presentation.tsx:105-117 | the exit moves against the direction of travel and the parking offset is its negation |
| Presentation.InputWhileTransitioningIsDropped | src/components/Presentation.tsx:75-76 | while a transition runs, navigation input changes neither the slide nor the transition |
| Presentation.StepKeepsTarget | src/components/Presentation.tsx:74-154 | during a transition every event keeps its landing slide, and the current slide is the old one or that target |
| Presentation.BusyRunLandsOnTarget | src/components/Presentation.tsx:74-154 | the first accepted call decides where the transition lands; when the guard is released the current slide is that target |
| Presentation.CompleteTransition | src/components/Presentation.tsx:74-154 | with the container attached: exit, hidden swap at the entry offset, layout effect starting the enter, then the enter's completion releasing the guard with the container visible and centred |
| Presentation.MissingContainerFallbacks | src/components/Presentation.tsx:88-113 | without a container, goToSlide and the exit completion swap at once and release the guard |
| Presentation.StuckIsClosed | src/components/Presentation.tsx:127-130 | after the layout effect's early return with an enter awaited, no event moves the deck or releases the guard |
| Presentation.StuckIsReachable | src/components/Presentation.tsx:116-130 | a two-slide deck reaches that state when the container detaches between swap and layout effect |
| Presentation.RapidNextKeys | src/components/Presentation.tsx:75-76 | three quick "next" keys on a five-slide deck advance exactly one slide |
| Presentation.KeysDriveNavigation | src/components/Presentation.tsx:156-165 | navigation keys call onNext or onPrev, any other non-overview key leaves the state alone |
| Presentation.SwipeExamples | src/components/Presentation.tsx:179-182 | a left swipe of 60 px goes next, a right one goes back, a steep one or one of exactly 50 px does nothing |
| Presentation.TouchEndBehaviour | src/components/Presentation.tsx:173-185 | a touch end navigates by the classification and always forgets the start point; without a start point nothing happens |
| Presentation.OverviewToggle | src/components/Presentation.tsx:199-201 | `o`/`O` toggles only the overview; twice is the identity |
| Presentation.EscapeOnlyCloses | src/components/Presentation.tsx:202-204 | Escape only ever closes the overview |
| Presentation.ThumbnailSelects | src/components/Presentation.tsx:226-232 | a thumbnail click is goToSlide followed by closing the overview; with the container unmounted it lands at once |
| SlideRenderer.Dispatch | src/components/Presentation.tsx:20-49 | story slides go to the quote renderer exactly for the quote-full layout or typewriter animation; the four visual types to the visualization renderer; list and stat to theirs; unknown types to the content renderer |
| ListSlide.CeilHalf | src/components/slides/ListSlide.tsx:15 | the result is the least m with 2m at least n |
| ListSlide.SplitInHalf | src/components/slides/ListSlide.tsx:14-17 | the halves concatenate to the input, the first is ceil(n/2) long, and the first is as long as the second or one longer |
| ListSlide.FirstIndexOf | src/components/slides/ListSlide.tsx:20 | none exactly when the character is absent; otherwise the position of its first occurrence |
| ListSlide.Split | src/components/slides/ListSlide.tsx:20 | at least one piece, none containing the separator |
| ListSlide.JoinSplit | src/components/slides/ListSlide.tsx:20-23 | joining the pieces with the separator gives back the string |
| ListSlide.SplitPieces | src/components/slides/ListSlide.tsx:21 | more than one piece exactly when the separator occurs |
| ListSlide.ParseItem | src/components/slides/ListSlide.tsx:19-26 | a label exactly when a colon occurs and the text before the first colon is under 40 characters; then the label is everything before the first colon and the text everything after it, so label, colon and text rebuild the item; otherwise the text is the item |
| ListSlide.ItemText | src/components/slides/ListSlide.tsx:70-82 | a label is highlighted exactly when the first colon comes after at least one and fewer than 40 characters, with the text before it as the label and the text after it as the body; otherwise a plain paragraph of the item, minus a leading colon |
| ListSlide.ItemTextShowsItem | src/components/slides/ListSlide.tsx:70-82 | every item is shown as written, except that a leading colon (an empty label) is dropped |
| ListSlide.IconIndex | src/components/slides/ListSlide.tsx:206 | the icon index always names one of the six glyphs |
| ListSlide.Cards | src/components/slides/ListSlide.tsx:143-232 | one card per item, in order, on the given side |
| ListSlide.IconCards | src/components/slides/ListSlide.tsx:197-217 | one card per item, in order, the i-th with glyph i mod 6 |
| ListSlide.ItemsOfAppend | src/components/slides/ListSlide.tsx:143-232 | the items of concatenated blocks are the concatenated items |
| ListSlide.ItemsOfCards | src/components/slides/ListSlide.tsx:143-232 | blocks that are cards for the given items show exactly those items |
| ListSlide.BodyShowsItems | src/components/slides/ListSlide.tsx:87-232 | the four known layouts show every item exactly once and in order; any other layout shows none |
| ListSlide.ComparisonImageOnlyWhenRightEmpty | src/components/slides/ListSlide.tsx:162-194 | the comparison layout has an image slot exactly when its right column is empty, i.e. for at most one item |
| ListSlide.AnimationFor | src/components/slides/ListSlide.tsx:36 | sided column animation exactly for the split and comparison layouts |
| ListSlide.Entrance | src/components/slides/ListSlide.tsx:92-105 | the entrance runs only when active with a container and not yet animated, and then with the animation chosen by the layout; an inactive commit leaves the guard clear |
| StorySlide.Fold | src/components/slides/StorySlide.tsx:13 | case folding maps each ASCII capital to its own lower-case letter, so exactly the ASCII letters land on lower case, and fixes everything else |
| StorySlide.UnitEnd | src/components/slides/StorySlide.tsx:13 | a unit alternative matches exactly when its word occurs there, case-insensitively; the match ends right after the word, or one further exactly when the alternative takes a plural and an `s` or `S` follows |
| StorySlide.FirstUnitEnd | src/components/slides/StorySlide.tsx:13 | no unit exactly when no alternative matches; otherwise the end of the first matching alternative |
| StorySlide.DigitsEnd | src/components/slides/StorySlide.tsx:13 | the end of the maximal run of digits |
| StorySlide.SpacesEnd | src/components/slides/StorySlide.tsx:13 | the end of the maximal run of whitespace |
| StorySlide.Scan | src/components/slides/StorySlide.tsx:13 | the parts of a match starting at a digit are ordered and non-empty in the digits |
| StorySlide.GroupEndIsGreedy | src/components/slides/StorySlide.tsx:13 | an optional group `c\d+` is taken greedily |
| StorySlide.FirstUnitEndIsFirst | src/components/slides/StorySlide.tsx:13 | the unit taken is the first alternative that matches |
| StorySlide.ScanIsGreedy | src/components/slides/StorySlide.tsx:13 | the scanner's parts satisfy the declarative greedy, first-alternative reading of the expression |
| StorySlide.MaximalDigitsUnique | src/components/slides/StorySlide.tsx:13 | a maximal digit run from a position has one end |
| StorySlide.GroupIsGreedy | src/components/slides/StorySlide.tsx:13 | a greedy optional group has one end |
| StorySlide.SpacesUnique | src/components/slides/StorySlide.tsx:13 | a maximal whitespace run has one end |
| StorySlide.FirstUnitUnique | src/components/slides/StorySlide.tsx:13 | the first-alternative unit has one end |
| StorySlide.FirstOfUnique | src/components/slides/StorySlide.tsx:13 | trying a list of alternatives in order, first match wins, has exactly one outcome |
| StorySlide.GreedyParts | src/components/slides/StorySlide.tsx:13 | in any greedy reading each part ends exactly where the scanner's corresponding step ends |
| StorySlide.GreedyIsScan | src/components/slides/StorySlide.tsx:13 | the greedy reading is unique: it is the scanner's |
| StorySlide.FirstDigit | src/components/slides/StorySlide.tsx:13-14 | none exactly when the text has no digit; otherwise the leftmost digit |
| StorySlide.Spotlight | src/components/slides/StorySlide.tsx:12-15 | "Real" exactly when the text has no digit; otherwise a non-empty match beginning with a digit |
| StorySlide.TimesSpotlight | src/components/slides/StorySlide.tsx:13 | "10xs" spotlights "10x": `x` takes no plural `s` |
| StorySlide.HourSpotlight | src/components/slides/StorySlide.tsx:13 | "3 hour!" spotlights "3 hour": a time word matches without its optional `s` |
| StorySlide.WeeksSpotlight | src/components/slides/StorySlide.tsx:13 | "2 Weeks" spotlights "2 Weeks": the capital folds and the plural `s` is taken |
| StorySlide.SpotlightIsLeftmostGreedy | src/components/slides/StorySlide.tsx:12-15 | the spotlight is the greedy match starting at the leftmost digit |
| StorySlide.FortyEightHoursCuts | src/components/slides/StorySlide.tsx:13 | "48 hours " reads as two digits, one space and the unit "hours" |
| StorySlide.FortyEightHours | src/components/slides/StorySlide.tsx:12-15 | a text whose first digit starts "48 hours " spotlights "48 hours" |
| StorySlide.MaintenanceQuoteSpotlight | src/lib/slideData.ts:94-95 | the predictive-maintenance story spotlights "48 hours" |
| StorySlide.LayoutFor | src/components/slides/StorySlide.tsx:29 | each named layout exactly for its name; everything else is the editorial default |
| StorySlide.View | src/components/slides/StorySlide.tsx:47-158 | the layout is the one chosen from `layout ?? 'default'`; the quote is the slide's quote or empty; a spotlight is shown exactly in the number-spotlight layout, and it is the value extracted from that quote |
| StorySlide.QuoteFullUnreachable | src/components/Presentation.tsx:28-31 | a slide routed to the story renderer never has the quote-full layout |
| StatSlide.InlinePrefix | src/components/slides/StatSlide.tsx:103 | only "$" and "<$" are rendered inline, as themselves |
| StatSlide.CardFor | src/components/slides/StatSlide.tsx:90-107 | a caption exactly for a non-empty prefix that is not inline; the data-prefix is the inline prefix; the text is the inline prefix, then the value, then the suffix, with nothing else |
| StatSlide.PrefixAppearsOnce | src/components/slides/StatSlide.tsx:95-106 | a non-empty prefix appears exactly once, as caption or inline; an absent or empty one nowhere |
| StatSlide.FinalDisplay | src/components/slides/StatSlide.tsx:36-50 | for a whole-number value the count-up's last display is a numeral without leading zeros of the same number, and equals the value exactly when the value has no leading zeros |
| StatSlide.CanonicalUnique | src/components/slides/StatSlide.tsx:50 | two numerals without leading zeros that denote the same number are the same string |
| StatSlide.FinalDisplayIsTheNumeral | src/components/slides/StatSlide.tsx:50 | any numeral without leading zeros of the value's number is the last display |
| StatSlide.FinalDisplayExamples | src/components/slides/StatSlide.tsx:36-50 | "80" settles on "80", "007" on "7", "000" on "0" |
| StatSlide.CountUpEndsOnStaticText | src/components/slides/StatSlide.tsx:33-54 | for a whole-number value, the counter's final text (prefix attribute, last display, suffix attribute) equals the card's static text exactly when the value has no leading zeros |
| StatSlide.Cards | src/components/slides/StatSlide.tsx:90 | one card per stat, in order |
| StatSlide.Grid | src/components/slides/StatSlide.tsx:78-79 | one column exactly for one stat, two for two, three otherwise |
| VisualizationSlide.LookupAsWritten | src/components/slides/VisualizationSlide.tsx:62 | a component exactly for the map's own keys; an inherited member for the prototype's names |
| VisualizationSlide.Lookup | src/components/slides/VisualizationSlide.tsx:22-33 | a component exactly for the map's own keys, the one the map holds |
| VisualizationSlide.InheritedMemberIsFound | src/components/slides/VisualizationSlide.tsx:62 | the key "constructor" finds a non-component as written and nothing under the own-key lookup |
| VisualizationSlide.LookupsAgree | src/components/slides/VisualizationSlide.tsx:62 | outside the inherited names the two lookups agree |
| VisualizationSlide.ChildFor | src/components/slides/VisualizationSlide.tsx:62-80 | a child exactly for a known key, the mapped component, receiving the slide's own `isActive`; built on the own-key lookup (see Findings) |
| RiskFramework.CategoriesAreDistinctKeys | src/components/visualizations/RiskFramework.tsx:6-42 | the five category names used as keys are distinct |
| RiskFramework.InitialInv | src/components/visualizations/RiskFramework.tsx:50 | the first render has no card expanded |
| RiskFramework.Toggle | src/components/visualizations/RiskFramework.tsx:87 | the card becomes expanded exactly when it was not |
| RiskFramework.Click | src/components/visualizations/RiskFramework.tsx:87 | a click expands the clicked card exactly when it was not expanded, otherwise collapses all; the guard is untouched |
| RiskFramework.ClickTwice | src/components/visualizations/RiskFramework.tsx:87 | two clicks on one card restore the state exactly when nothing else was expanded |
| RiskFramework.View | src/components/visualizations/RiskFramework.tsx:80-111 | a card spans two columns and shows its prevention exactly when it is the expanded one |
| RiskFramework.AtMostOneExpanded | src/components/visualizations/RiskFramework.tsx:80-111 | at most one card shows its prevention |
| RiskFramework.Commit | src/components/visualizations/RiskFramework.tsx:53-72 | the entrance runs exactly when its effect re-runs active, attached and not yet animated; an active commit keeps the expanded card |
| RiskFramework.DeactivationResets | src/components/visualizations/RiskFramework.tsx:67-72 | leaving collapses every card and re-arms the entrance |
| RiskFramework.ReturnStartsCollapsed | src/components/visualizations/RiskFramework.tsx:53-72 | coming back runs the entrance with every card collapsed |
| ProgressBar.Progress | src/components/ui/ProgressBar.tsx:12 | finite exactly for a non-zero total, then the width times the total is 100 times the one-based position; NaN only for 0/0 |
| ProgressBar.ProgressBounds | src/components/ui/ProgressBar.tsx:12 | on a deck slide the width is in (0, 100] and is 100 exactly on the last slide |
| ProgressBar.ProgressIncreases | src/components/ui/ProgressBar.tsx:12 | later slides have strictly wider bars |
| ProgressBar.Counter | src/components/ui/ProgressBar.tsx:29 | a one-based position no larger than the total |
| ProgressBar.Find | src/components/ui/ProgressBar.tsx:13 | none exactly when no entry has the number; otherwise the first such entry |
| ProgressBar.ModuleLabel | src/components/ui/ProgressBar.tsx:13-26 | a label only for a present non-zero number, naming a registry entry with that number |
| ProgressBar.ModuleLabelShown | src/components/ui/ProgressBar.tsx:13-26 | the label appears exactly for numbers 1 to 4; the truthiness test changes nothing |
| DeckInvariants.RegistryNumbers | src/lib/slideData.ts:457-462 | the registry is numbered 1 to 4 in order, so numbers are distinct and each of 1..4 names an entry |
| DeckInvariants.DeckTypesAndModules | src/lib/slideData.ts:31-455 | forty slides, each of a declared type, module numbers within 1..4, every divider in a module |
| DeckInvariants.DeckVisualizationKeysPresent | src/lib/slideData.ts:31-455 | every visual-type slide carries a visualization key |
| DeckInvariants.DeckVisualizationKeys | src/lib/slideData.ts:31-455 | every visualization key is one of the map's own keys |
| DeckInvariants.DeckStats | src/lib/slideData.ts:31-455 | every stat slide has a non-empty list of whole-number values written without leading zeros |
| DeckInvariants.DeckCountUpsSettle | src/lib/slideData.ts:61-395 | on every stat slide of the deck, each counter's count-up ends on the card's static text |
| DeckInvariants.DeckWellFormed | src/lib/slideData.ts:31-455 | every slide of the deck is well formed for its renderer |
| DeckInvariants.RowsGiveDistinct | src/lib/slideData.ts:31-455 | the per-slide distinctness facts from a position on give pairwise distinct ids from there |
| DeckInvariants.IdsDistinct | src/lib/slideData.ts:31-455 | slide ids, the React keys of slides and thumbnails, are pairwise distinct |
| DeckInvariants.DeckVisualizationsResolve | src/components/slides/VisualizationSlide.tsx:62-80 | every deck slide routed to the visualization renderer finds its component, and the as-written lookup agrees |
| DeckInvariants.ProgressOnDeck | src/components/ui/ProgressBar.tsx:12-26 | wherever the presentation is, the bar is within bounds and the module label appears exactly when the slide belongs to a module |

## Left out

- **GSAP timelines.** Durations, easing, staggers and the `ctx.revert()` cleanup are left out; only completion and the container's end values are kept.
- **Count-up arithmetic.** The intermediate displays of the float tween are left out. Only the last display of a whole-number value is modelled, on the assumption that the tween's last update sees exactly the target.
- StatSlide.FinalDisplay: covers whole-number values only. Decimal values (the `toFixed` branch) are not modelled, nor values from 2^53 upwards, where doubles lose precision and `toString` eventually switches to exponent notation. Every deck value is a small whole number (`DeckInvariants.DeckStats`).
- **React.** Scheduling, batching, stale closures and the re-registration of listeners are left out. Effects are explicit commits and events.
- **Containers.** Container presence is an environment flag. That the overview unmounts the container is expressed through `SetContainer`.
- **Renderers without logic.** The title, divider, module-divider, quote, interaction, content and closing renderers, the nine visualization components other than the risk framework, the background and the layout are left out. They only draw fields.
- **Copy text and styling.** Titles, items, quotes, labels, colours, durations and images on the slide records are left out, as is the Tailwind configuration. The renderers' logic does not branch on them.
- **`layout`, `animation` and `atmosphereImage`.** The `Slide` type does not declare these fields. The renderers take them as parameters, and deck slides pass none.
- ListSlide.ParseItem: measures the label in characters, whereas JavaScript counts UTF-16 code units. The two agree except for characters outside the Basic Multilingual Plane.
- StorySlide.Spotlight: works on characters rather than UTF-16 code units. The only difference is surrogate pairs, which never match a digit, a space or a unit letter.
- ProgressBar.Progress: uses exact reals instead of IEEE doubles, so the rounding of the percentage is not modelled.
- **Distinct values in `visualizationMap`.** That the map sends distinct keys to distinct components is not stated, because nothing in the code depends on distinct values.

## Findings

| source | as written | input that shows it | evidently intended | confidence | as-written member | corrected member |
|---|---|---|---|---|---|---|
| src/components/slides/VisualizationSlide.tsx:62 | `visualizationMap[slide.visualization]` indexes a plain object literal, so inherited `Object.prototype` names are found too | a slide with `visualization: "constructor"` gets `Object` as its component; React calls `Object(props)`, which returns the props object, and the render throws because an object is not a valid React child | only the map's ten own keys select a component; any other key renders nothing | low, not executed; no deck slide uses such a key (`DeckInvariants.DeckVisualizationsResolve`) | VisualizationSlide.LookupAsWritten (with VisualizationSlide.InheritedMemberIsFound) | VisualizationSlide.Lookup (with VisualizationSlide.LookupsAgree) |

=== FILE: deck_invariants.dfy ===
/**
 * Facts about the deck constant (src/lib/slideData.ts) that the renderers and
 * the presentation rely on: the deck is non-empty, ids are unique React keys,
 * module numbers refer to the registry, and every slide carries the fields
 * its renderer reads.
 */
module DeckInvariants {
  import opened Wrappers
  import SlideData
  import SlideRenderer
  import StatSlide
  import SlideAnimation
  import VisualizationSlide
  import ProgressBar
  import Presentation

  /** What each slide record must satisfy for its renderer. */
  predicate WellFormed(s: SlideData.Slide) {
    && s.kind in SlideData.SlideTypes
    && (s.moduleNumber.Some? ==> 1 <= s.moduleNumber.value <= 4)
    && (s.kind == "module-divider" ==> s.moduleNumber.Some?)
    && (s.kind in SlideData.VisualTypes ==> s.visualization.Some?)
    && (s.visualization.Some? ==> s.visualization.value in VisualizationSlide.Components)
    && (s.kind == "stat" ==> StatsWellFormed(s.stats))
  }

  /**
   * A stat slide's `stats`: present, non-empty, and every value a whole number
   * written without leading zeros, so the count-up settles on the text first shown.
   */
  predicate StatsWellFormed(stats: Option<seq<SlideData.Stat>>) {
    stats.Some? && |stats.value| > 0 &&
    forall k :: 0 <= k < |stats.value| ==> StatSlide.DecimalDigits(stats.value[k].value) && StatSlide.Canonical(stats.value[k].value)
  }

  /** The registry is numbered 1 to 4 in order, so its numbers are distinct and `1 <= n <= 4` names an entry. */
  lemma RegistryNumbers()
    ensures |SlideData.Modules| == 4
    ensures forall i :: 0 <= i < |SlideData.Modules| ==> SlideData.Modules[i].number == i + 1
    ensures forall i, j :: 0 <= i < j < |SlideData.Modules| ==> SlideData.Modules[i].number != SlideData.Modules[j].number
    ensures forall n :: 1 <= n <= |SlideData.Modules| <==> ProgressBar.Find(SlideData.Modules, n).Some?
  {
  }

  /** The first and the second half of the deck, checked separately to keep each proof small. */
  lemma DeckTypesAndModulesLow()
    ensures |SlideData.Slides| == 40
    ensures forall i :: 0 <= i < 20 ==> SlideData.Slides[i].kind in SlideData.SlideTypes
    ensures forall i :: 0 <= i < 20 ==>
      SlideData.Slides[i].moduleNumber.Some? ==> 1 <= SlideData.Slides[i].moduleNumber.value <= 4
    ensures forall i :: 0 <= i < 20 ==>
      SlideData.Slides[i].kind == "module-divider" ==> SlideData.Slides[i].moduleNumber.Some?
  {
  }

  lemma DeckTypesAndModulesHigh()
    ensures |SlideData.Slides| == 40
    ensures forall i :: 20 <= i < 40 ==> SlideData.Slides[i].kind in SlideData.SlideTypes
    ensures forall i :: 20 <= i < 40 ==>
      SlideData.Slides[i].moduleNumber.Some? ==> 1 <= SlideData.Slides[i].moduleNumber.value <= 4
    ensures forall i :: 20 <= i < 40 ==>
      SlideData.Slides[i].kind == "module-divider" ==> SlideData.Slides[i].moduleNumber.Some?
  {
  }

  lemma DeckTypesAndModules()
    ensures |SlideData.Slides| == 40
    ensures forall i :: 0 <= i < |SlideData.Slides| ==> SlideData.Slides[i].kind in SlideData.SlideTypes
    ensures forall i :: 0 <= i < |SlideData.Slides| ==>
      SlideData.Slides[i].moduleNumber.Some? ==> 1 <= SlideData.Slides[i].moduleNumber.value <= 4
    ensures forall i :: 0 <= i < |SlideData.Slides| ==>
      SlideData.Slides[i].kind == "module-divider" ==> SlideData.Slides[i].moduleNumber.Some?
  {
    DeckTypesAndModulesLow();
    DeckTypesAndModulesHigh();
  }

  lemma DeckVisualizationKeysPresentLow()
    ensures |SlideData.Slides| == 40
    ensures forall i :: 0 <= i < 20 ==>
      SlideData.Slides[i].kind in SlideData.VisualTypes ==> SlideData.Slides[i].visualization.Some?
  {
  }

  lemma DeckVisualizationKeysPresentHigh()
    ensures |SlideData.Slides| == 40
    ensures forall i :: 20 <= i < 40 ==>
      SlideData.Slides[i].kind in SlideData.VisualTypes ==> SlideData.Slides[i].visualization.Some?
  {
  }

  lemma DeckVisualizationKeysPresent()
    ensures forall i :: 0 <= i < |SlideData.Slides| ==>
      SlideData.Slides[i].kind in SlideData.VisualTypes ==> SlideData.Slides[i].visualization.Some?
  {
    DeckVisualizationKeysPresentLow();
    DeckVisualizationKeysPresentHigh();
  }

  lemma DeckVisualizationKeys()
    ensures forall i :: 0 <= i < |SlideData.Slides| ==>
      SlideData.Slides[i].visualization.Some? ==> SlideData.Slides[i].visualization.value in VisualizationSlide.Components
  {
  }

  lemma DeckStats()
    ensures forall i :: 0 <= i < |SlideData.Slides| ==>
      SlideData.Slides[i].kind == "stat" ==> StatsWellFormed(SlideData.Slides[i].stats)
  {
  }

  /** On every stat slide of the deck, each counter's count-up ends on the card's static text. */
  lemma DeckCountUpsSettle()
    ensures forall i, k ::
      (0 <= i < |SlideData.Slides| && SlideData.Slides[i].kind == "stat" && 0 <= k < |SlideData.Slides[i].stats.GetOr([])|)
      ==> StatSlide.CountUpSettles(SlideData.Slides[i].stats.GetOr([])[k])
  {
    DeckStats();
    forall i, k |
      0 <= i < |SlideData.Slides| && SlideData.Slides[i].kind == "stat" && 0 <= k < |SlideData.Slides[i].stats.GetOr([])|
      ensures StatSlide.CountUpSettles(SlideData.Slides[i].stats.GetOr([])[k])
    {
      StatSlide.CountUpEndsOnStaticText(SlideData.Slides[i].stats.GetOr([])[k]);
    }
  }

  /** Every slide of the deck is well formed. */
  lemma DeckWellFormed()
    ensures |SlideData.Slides| == 40
    ensures forall i :: 0 <= i < |SlideData.Slides| ==> WellFormed(SlideData.Slides[i])
  {
    DeckTypesAndModules();
    DeckVisualizationKeysPresent();
    DeckVisualizationKeys();
    DeckStats();
  }

  // ---------------------------------------------------------------------------
  // Unique ids. Comparing all 780 pairs in one proof is too much for the solver,
  // so each slide's id is compared with the later ones separately and the rows
  // are chained from the end of the deck.

  ghost predicate Row(k: int) {
    0 <= k < |SlideData.Slides| &&
    forall j :: k < j < |SlideData.Slides| ==> SlideData.Slides[k].id != SlideData.Slides[j].id
  }

  ghost predicate RowsFrom(k: nat)
    decreases |SlideData.Slides| - k
  {
    k >= |SlideData.Slides| || (Row(k) && RowsFrom(k + 1))
  }

  lemma {:induction false} RowsGiveDistinct(k: nat)
    requires RowsFrom(k)
    ensures forall i, j :: k <= i < j < |SlideData.Slides| ==> SlideData.Slides[i].id != SlideData.Slides[j].id
    decreases |SlideData.Slides| - k
  {
    if k < |SlideData.Slides| {
      RowsGiveDistinct(k + 1);
    }
  }

  lemma Row0() ensures Row(0) {}
  lemma Row1() ensures Row(1) {}
  lemma Row2() ensures Row(2) {}
  lemma Row3() ensures Row(3) {}
  lemma Row4() ensures Row(4) {}
  lemma Row5() ensures Row(5) {}
  lemma Row6() ensures Row(6) {}
  lemma Row7() ensures Row(7) {}
  lemma Row8() ensures Row(8) {}
  lemma Row9() ensures Row(9) {}
  lemma Row10() ensures Row(10) {}
  lemma Row11() ensures Row(11) {}
  lemma Row12() ensures Row(12) {}
  lemma Row13() ensures Row(13) {}
  lemma Row14() ensures Row(14) {}
  lemma Row15() ensures Row(15) {}
  lemma Row16() ensures Row(16) {}
  lemma Row17() ensures Row(17) {}
  lemma Row18() ensures Row(18) {}
  lemma Row19() ensures Row(19) {}
  lemma Row20() ensures Row(20) {}
  lemma Row21() ensures Row(21) {}
  lemma Row22() ensures Row(22) {}
  lemma Row23() ensures Row(23) {}
  lemma Row24() ensures Row(24) {}
  lemma Row25() ensures Row(25) {}
  lemma Row26() ensures Row(26) {}
  lemma Row27() ensures Row(27) {}
  lemma Row28() ensures Row(28) {}
  lemma Row29() ensures Row(29) {}
  lemma Row30() ensures Row(30) {}
  lemma Row31() ensures Row(31) {}
  lemma Row32() ensures Row(32) {}
  lemma Row33() ensures Row(33) {}
  lemma Row34() ensures Row(34) {}
  lemma Row35() ensures Row(35) {}
  lemma Row36() ensures Row(36) {}
  lemma Row37() ensures Row(37) {}
  lemma Row38() ensures Row(38) {}
  lemma Row39() ensures Row(39) {}

  lemma RowsFrom35()
    ensures RowsFrom(35)
  {
    Row39(); assert RowsFrom(39);
    Row38(); assert RowsFrom(38);
    Row37(); assert RowsFrom(37);
    Row36(); assert RowsFrom(36);
    Row35(); assert RowsFrom(35);
  }

  lemma RowsFrom30()
    ensures RowsFrom(30)
  {
    RowsFrom35();
    Row34(); assert RowsFrom(34);
    Row33(); assert RowsFrom(33);
    Row32(); assert RowsFrom(32);
    Row31(); assert RowsFrom(31);
    Row30(); assert RowsFrom(30);
  }

  lemma RowsFrom25()
    ensures RowsFrom(25)
  {
    RowsFrom30();
    Row29(); assert RowsFrom(29);
    Row28(); assert RowsFrom(28);
    Row27(); assert RowsFrom(27);
    Row26(); assert RowsFrom(26);
    Row25(); assert RowsFrom(25);
  }

  lemma RowsFrom20()
    ensures RowsFrom(20)
  {
    RowsFrom25();
    Row24(); assert RowsFrom(24);
    Row23(); assert RowsFrom(23);
    Row22(); assert RowsFrom(22);
    Row21(); assert RowsFrom(21);
    Row20(); assert RowsFrom(20);
  }

  lemma RowsFrom15()
    ensures RowsFrom(15)
  {
    RowsFrom20();
    Row19(); assert RowsFrom(19);
    Row18(); assert RowsFrom(18);
    Row17(); assert RowsFrom(17);
    Row16(); assert RowsFrom(16);
    Row15(); assert RowsFrom(15);
  }

  lemma RowsFrom10()
    ensures RowsFrom(10)
  {
    RowsFrom15();
    Row14(); assert RowsFrom(14);
    Row13(); assert RowsFrom(13);
    Row12(); assert RowsFrom(12);
    Row11(); assert RowsFrom(11);
    Row10(); assert RowsFrom(10);
  }

  lemma RowsFrom5()
    ensures RowsFrom(5)
  {
    RowsFrom10();
    Row9(); assert RowsFrom(9);
    Row8(); assert RowsFrom(8);
    Row7(); assert RowsFrom(7);
    Row6(); assert RowsFrom(6);
    Row5(); assert RowsFrom(5);
  }

  lemma RowsFrom0()
    ensures RowsFrom(0)
  {
    RowsFrom5();
    Row4(); assert RowsFrom(4);
    Row3(); assert RowsFrom(3);
    Row2(); assert RowsFrom(2);
    Row1(); assert RowsFrom(1);
    Row0(); assert RowsFrom(0);
  }

  /** The slide ids, used as React keys for the thumbnails and the mounted slide, are pairwise distinct. */
  lemma IdsDistinct()
    ensures forall i, j :: 0 <= i < j < |SlideData.Slides| ==> SlideData.Slides[i].id != SlideData.Slides[j].id
  {
    RowsFrom0();
    RowsGiveDistinct(0);
  }

  // ---------------------------------------------------------------------------
  // What the renderers get from the deck

  /**
   * Every deck slide routed to the visualization renderer finds its component,
   * and the as-written lookup finds the same one.
   */
  lemma DeckVisualizationsResolve(i: nat, isActive: bool)
    requires i < |SlideData.Slides|
    requires SlideRenderer.Dispatch(SlideData.Slides[i].kind, None, None) == SlideRenderer.VisualizationSlide
    ensures VisualizationSlide.ChildFor(SlideData.Slides[i].visualization, isActive).Some?
    ensures VisualizationSlide.LookupAsWritten(SlideData.Slides[i].visualization)
         == VisualizationSlide.Component(VisualizationSlide.Lookup(SlideData.Slides[i].visualization).value)
  {
    DeckWellFormed();
    var key := SlideData.Slides[i].visualization;
    assert WellFormed(SlideData.Slides[i]);
    assert key.value !in VisualizationSlide.InheritedMembers;
    VisualizationSlide.LookupsAgree(key);
  }

  /**
   * Wherever the presentation is, the bar is drawn within bounds and the module
   * label appears exactly when the current slide belongs to a module.
   */
  lemma ProgressOnDeck(containerPresent: bool, es: seq<Presentation.Event>)
    ensures var cur := Presentation.Run(Presentation.Initial(containerPresent), |SlideData.Slides|, es).current;
            && 0 <= cur < |SlideData.Slides|
            && 0.0 < ProgressBar.Progress(cur, |SlideData.Slides|).percent <= 100.0
            && (ProgressBar.ModuleLabel(SlideData.Slides[cur].moduleNumber).Some? <==>
                SlideData.Slides[cur].moduleNumber.Some?)
  {
    DeckWellFormed();
    var cur := Presentation.Run(Presentation.Initial(containerPresent), |SlideData.Slides|, es).current;
    Presentation.CurrentStaysInDeck(|SlideData.Slides|, containerPresent, es);
    ProgressBar.ProgressBounds(cur, |SlideData.Slides|);
    assert WellFormed(SlideData.Slides[cur]);
    ProgressBar.ModuleLabelShown(SlideData.Slides[cur].moduleNumber);
    RegistryNumbers();
  }
}

=== FILE: keyboard_nav.dfy ===
/**
 * The keyboard adapter (src/hooks/useKeyboardNav.ts): a window `keydown`
 * handler that maps `KeyboardEvent.key` to a navigation callback and decides
 * whether the browser's default action is suppressed.
 */
module KeyboardNav {

  /**
   * The callbacks the hook is given. `GoTo` stands for `onGoTo`, which the
   * hook receives but never calls.
   */
  datatype Callback = OnNext | OnPrev | GoTo(index: int) | NoCallback

  /** What one key press does: whether `preventDefault` is called and which callback runs (once). */
  datatype Response = Response(preventDefault: bool, callback: Callback)

  const NextKeys: set<string> := {"ArrowRight", " ", "PageDown"}
  const PrevKeys: set<string> := {"ArrowLeft", "PageUp"}
  const SuppressedOnlyKeys: set<string> := {"Home", "End"}

  /** `handleKeyDown`: the switch on `e.key`. */
  function HandleKeyDown(key: string): (r: Response)
    ensures r.callback == OnNext <==> key in NextKeys
    ensures r.callback == OnPrev <==> key in PrevKeys
    ensures r.preventDefault <==> key in NextKeys + PrevKeys + SuppressedOnlyKeys
    ensures !r.callback.GoTo?
    ensures key in SuppressedOnlyKeys ==> r == Response(true, NoCallback)
    ensures key !in NextKeys + PrevKeys + SuppressedOnlyKeys ==> r == Response(false, NoCallback)
  {
    match key
    case "ArrowRight" => Response(true, OnNext)
    case " " => Response(true, OnNext)
    case "PageDown" => Response(true, OnNext)
    case "ArrowLeft" => Response(true, OnPrev)
    case "PageUp" => Response(true, OnPrev)
    case "Home" => Response(true, NoCallback)
    case "End" => Response(true, NoCallback)
    case _ => Response(false, NoCallback)
  }
}

=== FILE: list_slide.dfy ===
/**
 * The list renderer (src/components/slides/ListSlide.tsx): splitting items
 * into two columns, parsing "Label: text" items, choosing the layout, the
 * icon of each icon-grid card, and the entrance guard keyed on the layout.
 */
module ListSlide {
  import opened Wrappers
  import SlideAnimation

  /** The six icon glyphs cycled through by the icon-grid layout. */
  const IconSymbols: seq<char> := ['◉', '◆', '▣', '✦', '⬢', '◎']

  // ---------------------------------------------------------------------------
  // splitInHalf

  /** `Math.ceil(n / 2)` for a length `n`. */
  function CeilHalf(n: nat): (m: nat)
    ensures 2 * m >= n && 2 * (m - 1) < n
  {
    (n + 1) / 2
  }

  /** splitInHalf: the first ceil(n/2) values, then the rest. */
  function SplitInHalf<T>(values: seq<T>): (r: (seq<T>, seq<T>))
    ensures r.0 + r.1 == values
    ensures 2 * |r.0| >= |values| > 2 * (|r.0| - 1)
    ensures |r.0| - |r.1| == 0 || |r.0| - |r.1| == 1
  {
    var midpoint := CeilHalf(|values|);
    assert values[..midpoint] + values[midpoint..] == values;
    (values[..midpoint], values[midpoint..])
  }

  // ---------------------------------------------------------------------------
  // String.prototype.split and Array.prototype.join with a one-character separator

  /** The position of the first `c` in `s`. */
  function FirstIndexOf(s: string, c: char): (r: Option<nat>)
    ensures r.None? <==> c !in s
    ensures r.Some? ==> r.value < |s| && s[r.value] == c && c !in s[..r.value]
  {
    if |s| == 0 then None
    else if s[0] == c then Some(0)
    else match FirstIndexOf(s[1..], c)
      case None => None
      case Some(i) =>
        assert s[..i + 1] == [s[0]] + s[1..][..i];
        Some(i + 1)
  }

  /** `s.split(sep)`: the maximal separator-free pieces, in order; one piece when `sep` does not occur. */
  function Split(s: string, sep: char): (parts: seq<string>)
    ensures |parts| >= 1
    ensures forall i :: 0 <= i < |parts| ==> sep !in parts[i]
    decreases |s|
  {
    match FirstIndexOf(s, sep)
    case None => [s]
    case Some(i) => [s[..i]] + Split(s[i + 1..], sep)
  }

  /** `parts.join(sep)`. */
  function Join(parts: seq<string>, sep: char): string
    requires |parts| >= 1
    decreases |parts|
  {
    if |parts| == 1 then parts[0] else parts[0] + [sep] + Join(parts[1..], sep)
  }

  /** Joining the pieces of a split with the same separator gives back the string. */
  lemma {:induction false} JoinSplit(s: string, sep: char)
    ensures Join(Split(s, sep), sep) == s
    decreases |s|
  {
    var r := FirstIndexOf(s, sep);
    if r.Some? {
      var i := r.value;
      var parts := Split(s, sep);
      var rest := Split(s[i + 1..], sep);
      JoinSplit(s[i + 1..], sep);
      assert parts == [s[..i]] + rest;
      assert parts[1..] == rest;
      assert Join(parts, sep) == s[..i] + [sep] + Join(rest, sep);
      assert s == s[..i] + [sep] + s[i + 1..];
    }
  }

  /** A split yields more than one piece exactly when the separator occurs. */
  lemma SplitPieces(s: string, sep: char)
    ensures |Split(s, sep)| > 1 <==> sep in s
  {
    match FirstIndexOf(s, sep)
    case None =>
    case Some(i) => assert |Split(s, sep)| == 1 + |Split(s[i + 1..], sep)|;
  }

  // ---------------------------------------------------------------------------
  // parseItem and ItemText

  datatype Parsed = Parsed(caption: Option<string>, text: string)

  /** The labels shown are those before the first colon, when that text is shorter than 40 characters. */
  const MaxLabelLength: nat := 40

  /** parseItem: split at every colon; the first piece is the label, the rest re-joined is the text. */
  function ParseItem(item: string): (p: Parsed)
    ensures p.caption.Some? <==>
      ':' in item && |item[..FirstIndexOf(item, ':').value]| < MaxLabelLength
    ensures p.caption.Some? ==>
      ':' !in p.caption.value && p.caption.value + ":" + p.text == item
    ensures p.caption.Some? ==>
      p.caption.value == item[..FirstIndexOf(item, ':').value] && p.text == item[FirstIndexOf(item, ':').value + 1..]
    ensures p.caption.None? ==> p.text == item
  {
    var parts := Split(item, ':');
    SplitPieces(item, ':');
    var hasLabel := |parts| > 1 && |parts[0]| < MaxLabelLength;
    if hasLabel then
      var i := FirstIndexOf(item, ':').value;
      JoinSplit(item[i + 1..], ':');
      assert parts == [item[..i]] + Split(item[i + 1..], ':');
      assert item == item[..i] + ":" + item[i + 1..];
      assert parts[1..] == Split(item[i + 1..], ':');
      Parsed(Some(parts[0]), Join(parts[1..], ':'))
    else
      Parsed(None, item)
  }

  /** What ItemText renders: a plain paragraph, or a highlighted label followed by the text. */
  datatype ItemView = Plain(text: string) | Labelled(caption: string, text: string)

  /**
   * ItemText: a label is highlighted exactly when the item has a colon after
   * at least one and fewer than 40 characters; an empty label counts as none,
   * and its colon is dropped.
   */
  function ItemText(item: string): (v: ItemView)
    ensures v.Labelled? <==> ':' in item && 0 < FirstIndexOf(item, ':').value < MaxLabelLength
    ensures v.Labelled? ==> |v.caption| > 0 && ':' !in v.caption
    ensures v.Labelled? ==>
      v.caption == item[..FirstIndexOf(item, ':').value] && v.text == item[FirstIndexOf(item, ':').value + 1..]
    ensures v.Plain? ==>
      v.text == if ':' in item && FirstIndexOf(item, ':').value == 0 then item[1..] else item
  {
    var p := ParseItem(item);
    if p.caption.None? || p.caption.value == "" then Plain(p.text) else Labelled(p.caption.value, p.text)
  }

  /** The characters a reader sees (the label is followed by its colon; the margin is not a character). */
  function Shown(v: ItemView): string {
    match v
    case Plain(text) => text
    case Labelled(caption, text) => caption + ":" + text
  }

  /**
   * Every item is shown as written, except one that starts with a colon: its
   * empty label is dropped together with the colon.
   */
  lemma ItemTextShowsItem(item: string)
    ensures Shown(ItemText(item)) == if |item| > 0 && item[0] == ':' then item[1..] else item
  {
    var p := ParseItem(item);
    if |item| > 0 && item[0] == ':' {
      assert FirstIndexOf(item, ':') == Some(0);
      assert p.caption == Some("");
      assert item == "" + ":" + p.text;
    }
  }

  // ---------------------------------------------------------------------------
  // Layouts

  datatype Side = Left | Right | Unsided

  /**
   * One rendered block of the item area: an item card (with its column and,
   * in the icon grid, its glyph) or the slot holding the atmosphere image.
   */
  datatype Block =
    | ItemCard(item: string, side: Side, icon: Option<char>)
    | ImageSlot(side: Side, filled: bool)

  /** `slide.layout ?? 'default'`. */
  function LayoutName(layout: Option<string>): string {
    layout.GetOr("default")
  }

  function Cards(items: seq<string>, side: Side): (bs: seq<Block>)
    ensures |bs| == |items|
    ensures forall i :: 0 <= i < |items| ==> bs[i] == ItemCard(items[i], side, None)
  {
    seq(|items|, i requires 0 <= i < |items| => ItemCard(items[i], side, None))
  }

  /** The glyph index of the i-th icon-grid card. */
  function IconIndex(i: nat): (k: nat)
    ensures k < |IconSymbols|
  {
    i % |IconSymbols|
  }

  function IconCards(items: seq<string>): (bs: seq<Block>)
    ensures |bs| == |items|
    ensures forall i :: 0 <= i < |items| ==>
      bs[i] == ItemCard(items[i], Unsided, Some(IconSymbols[IconIndex(i)]))
  {
    seq(|items|, i requires 0 <= i < |items| => ItemCard(items[i], Unsided, Some(IconSymbols[IconIndex(i)])))
  }

  /**
   * The item area for a layout, the slide's items (`slide.items ?? []`) and
   * whether the slide has an atmosphere image. A layout other than the four
   * known ones renders no item area.
   */
  function Body(layout: Option<string>, items: Option<seq<string>>, hasImage: bool): seq<Block> {
    var xs := items.GetOr([]);
    match LayoutName(layout)
    case "split" => Cards(xs, Left) + [ImageSlot(Right, hasImage)]
    case "comparison" =>
      var (left, right) := SplitInHalf(xs);
      Cards(left, Left) + Cards(right, Right) + (if |right| == 0 then [ImageSlot(Right, hasImage)] else [])
    case "icon-grid" => IconCards(xs) + (if hasImage then [ImageSlot(Unsided, true)] else [])
    case "default" => Cards(xs, Unsided)
    case _ => []
  }

  /** The items shown by a sequence of blocks, in order. */
  function ItemsOf(bs: seq<Block>): seq<string>
    decreases |bs|
  {
    if |bs| == 0 then []
    else (if bs[0].ItemCard? then [bs[0].item] else []) + ItemsOf(bs[1..])
  }

  lemma {:induction false} ItemsOfAppend(a: seq<Block>, b: seq<Block>)
    ensures ItemsOf(a + b) == ItemsOf(a) + ItemsOf(b)
    decreases |a|
  {
    if |a| == 0 {
      assert a + b == b;
    } else {
      assert (a + b)[1..] == a[1..] + b;
      ItemsOfAppend(a[1..], b);
    }
  }

  lemma {:induction false} ItemsOfCards(bs: seq<Block>, items: seq<string>)
    requires |bs| == |items|
    requires forall i :: 0 <= i < |bs| ==> bs[i].ItemCard? && bs[i].item == items[i]
    ensures ItemsOf(bs) == items
    decreases |bs|
  {
    if |bs| > 0 {
      ItemsOfCards(bs[1..], items[1..]);
    }
  }

  /**
   * The four known layouts show every item exactly once and in order (the
   * comparison layout as a left and a right column); any other layout shows none.
   */
  lemma BodyShowsItems(layout: Option<string>, items: Option<seq<string>>, hasImage: bool)
    ensures LayoutName(layout) in {"split", "comparison", "icon-grid", "default"} ==>
      ItemsOf(Body(layout, items, hasImage)) == items.GetOr([])
    ensures LayoutName(layout) !in {"split", "comparison", "icon-grid", "default"} ==>
      ItemsOf(Body(layout, items, hasImage)) == []
  {
    var xs := items.GetOr([]);
    var name := LayoutName(layout);
    if name == "split" {
      ItemsOfCards(Cards(xs, Left), xs);
      ItemsOfAppend(Cards(xs, Left), [ImageSlot(Right, hasImage)]);
    } else if name == "comparison" {
      var (left, right) := SplitInHalf(xs);
      var tail: seq<Block> := if |right| == 0 then [ImageSlot(Right, hasImage)] else [];
      ItemsOfCards(Cards(left, Left), left);
      ItemsOfCards(Cards(right, Right), right);
      ItemsOfAppend(Cards(left, Left), Cards(right, Right));
      ItemsOfAppend(Cards(left, Left) + Cards(right, Right), tail);
      assert ItemsOf(tail) == [];
    } else if name == "icon-grid" {
      var tail: seq<Block> := if hasImage then [ImageSlot(Unsided, true)] else [];
      ItemsOfCards(IconCards(xs), xs);
      ItemsOfAppend(IconCards(xs), tail);
      assert ItemsOf(tail) == [];
    } else if name == "default" {
      ItemsOfCards(Cards(xs, Unsided), xs);
    }
  }

  /** In the comparison layout the image slot is rendered exactly when the right column is empty, i.e. for at most one item. */
  lemma ComparisonImageOnlyWhenRightEmpty(items: seq<string>, hasImage: bool)
    ensures var bs := Body(Some("comparison"), Some(items), hasImage);
            (exists i :: 0 <= i < |bs| && bs[i].ImageSlot?) <==> |SplitInHalf(items).1| == 0
    ensures |SplitInHalf(items).1| == 0 <==> |items| <= 1
  {
    var (left, right) := SplitInHalf(items);
    var bs := Body(Some("comparison"), Some(items), hasImage);
    var cards := Cards(left, Left) + Cards(right, Right);
    assert forall i :: 0 <= i < |cards| ==> cards[i].ItemCard?;
    if |right| == 0 {
      assert bs[|bs| - 1].ImageSlot?;
    } else {
      assert bs == cards;
    }
  }

  // ---------------------------------------------------------------------------
  // Entrance

  /** Which element groups the entrance staggers: left/right columns, or one list. */
  datatype ListAnimation = SidedColumns | SingleStagger

  /** runListAnimation's branch on the layout. */
  function AnimationFor(layout: string): (a: ListAnimation)
    ensures a == SidedColumns <==> layout == "split" || layout == "comparison"
  {
    if layout == "split" || layout == "comparison" then SidedColumns else SingleStagger
  }

  /**
   * One commit of ListSlide: the entrance effect depends on `[isActive, layout]`;
   * when it fires it runs the animation chosen for the layout.
   */
  function Entrance(g: SlideAnimation.Guard, isActive: bool, layout: Option<string>, container: bool)
    : (r: (SlideAnimation.Outcome, Option<ListAnimation>))
    ensures r.0.fired <==> r.1.Some?
    ensures r.0.fired ==> isActive && container && !g.hasAnimated && r.0.guard.hasAnimated
    ensures r.1.Some? ==>
      (r.1.value == SidedColumns <==> LayoutName(layout) == "split" || LayoutName(layout) == "comparison")
    ensures SlideAnimation.Valid(g) && !isActive ==> !r.0.guard.hasAnimated
  {
    var o := SlideAnimation.Render(g, SlideAnimation.Commit(isActive, LayoutName(layout), container));
    (o, if o.fired then Some(AnimationFor(LayoutName(layout))) else None)
  }
}

=== FILE: presentation.dfy ===
/**
 * The navigation controller and transition sequencer of the deck
 * (src/components/Presentation.tsx), as a state machine over explicit events.
 *
 * React state (`currentSlide`, `isTransitioning`, `showOverview`) and refs
 * (`awaitingEnterRef`, `touchStartRef`, `slideContainerRef`) become fields of
 * `State`. The animation library is reduced to the one tween that may be in
 * flight on the slide container and to the end values it leaves on the
 * container (`frame`); its completion callbacks become the events `ExitDone`
 * and `EnterDone`. The layout effect keyed on `currentSlide` becomes the event
 * `LayoutEffect`, which only has an effect once per change of `currentSlide`.
 * Whether the container element is attached is an environment flag, changed by
 * `SetContainer`. Every event reads the current state: the program is
 * single-threaded and each handler runs to completion.
 *
 * `n` is the number of slides in the deck (`slides.length`).
 */
module Presentation {
  import opened Wrappers
  import KeyboardNav

  /** A touch position in CSS pixels. */
  datatype Point = Point(x: real, y: real)

  /** The container's opacity and horizontal offset as last set by the animation code. */
  datatype Frame = Frame(opacity: int, x: int)

  /** The tween in flight on the slide container, if any. */
  datatype Tween =
    | NoTween
    | ExitTween(target: int, direction: int)
    | EnterTween

  datatype State = State(
    current: int,
    transitioning: bool,
    showOverview: bool,
    awaitingEnter: bool,
    containerPresent: bool,
    tween: Tween,
    layoutDue: bool,
    frame: Frame,
    touchStart: Option<Point>)

  datatype Event =
    | GoTo(index: int)          // a direct call of goToSlide
    | ExitDone                  // the exit tween's onComplete
    | LayoutEffect              // the layout effect after a commit
    | EnterDone                 // the enter tween's onComplete
    | Key(key: string)          // a window keydown
    | Thumbnail(index: int)     // a click on an overview thumbnail
    | OverviewButton            // the "Overview (O)" button
    | CloseButton               // the overview's "Close (Esc)" button
    | PrevZone                  // the left click zone
    | NextZone                  // the right click zone
    | TouchStart(p: Point)
    | TouchEnd(p: Point)
    | SetContainer(present: bool)

  /** The state on mount: first slide, no transition, no overview, container fully visible. */
  function Initial(containerPresent: bool): State {
    State(0, false, false, false, containerPresent, NoTween, false, Frame(1, 0), None)
  }

  // ---------------------------------------------------------------------------
  // goToSlide and the transition sequencer

  /** +1 when travelling towards a later slide, -1 otherwise. */
  function Direction(current: int, index: int): (d: int)
    ensures d == 1 <==> index > current
    ensures d == 1 || d == -1
  {
    if index > current then 1 else -1
  }

  /** Where the exit tween moves the outgoing slide. */
  function ExitOffset(direction: int): int {
    if direction > 0 then -40 else 40
  }

  /** Where the container is parked, hidden, before the incoming slide is swapped in. */
  function EntryOffset(direction: int): int {
    if direction > 0 then 40 else -40
  }

  /** The guard of goToSlide: the index is in range, no transition is running, and it is a different slide. */
  predicate Accepts(s: State, n: int, index: int) {
    !(index < 0 || index >= n || s.transitioning || index == s.current)
  }

  /** An unanimated swap: `setCurrentSlide(index); setIsTransitioning(false)`. */
  function Swap(s: State, index: int): State {
    s.(current := index, transitioning := false, layoutDue := s.layoutDue || index != s.current)
  }

  /** The body run through the animation context: start the exit tween, or swap if the container is gone. */
  function StartExit(s: State, index: int, direction: int): State {
    if !s.containerPresent then Swap(s, index)
    else s.(tween := ExitTween(index, direction))
  }

  /** goToSlide(index). */
  function GoToSlide(s: State, n: int, index: int): (r: State)
    ensures r == s <==> !Accepts(s, n, index)
    ensures Accepts(s, n, index) && !s.containerPresent ==>
      r.current == index && !r.transitioning && r.tween == s.tween
    ensures Accepts(s, n, index) && s.containerPresent ==>
      r.current == s.current && r.transitioning && r.tween == ExitTween(index, Direction(s.current, index))
    ensures r.showOverview == s.showOverview && r.containerPresent == s.containerPresent
  {
    if index < 0 || index >= n || s.transitioning || index == s.current then s
    else
      var s1 := s.(transitioning := true);
      if !s1.containerPresent then Swap(s1, index)
      else StartExit(s1, index, Direction(s.current, index))
  }

  /** onNext and onPrev. */
  function OnNext(s: State, n: int): State { GoToSlide(s, n, s.current + 1) }
  function OnPrev(s: State, n: int): State { GoToSlide(s, n, s.current - 1) }

  /** The exit tween's onComplete: park the container hidden at the entry offset, then swap. */
  function ExitComplete(s: State): State {
    match s.tween
    case ExitTween(index, direction) =>
      var s1 := s.(tween := NoTween);
      if !s1.containerPresent then Swap(s1, index)
      else s1.(frame := Frame(0, EntryOffset(direction)), awaitingEnter := true,
               current := index, layoutDue := s1.layoutDue || index != s1.current)
    case _ => s
  }

  /** runEnter: start the enter tween, or release the guard if the container is gone. */
  function RunEnter(s: State): State {
    if !s.containerPresent then s.(transitioning := false)
    else s.(tween := EnterTween)
  }

  /**
   * The layout effect on `[currentSlide]`. It returns early, WITHOUT releasing
   * `isTransitioning`, when no enter is awaited or when the container is absent.
   */
  function RunLayoutEffect(s: State): State {
    if !s.layoutDue then s
    else
      var s1 := s.(layoutDue := false);
      if !s1.awaitingEnter || !s1.containerPresent then s1
      else RunEnter(s1.(awaitingEnter := false))
  }

  /**
   * The container element appears or disappears. The single-slide view mounts
   * a new element whenever the overview closes; it carries none of the inline
   * styles the animation code set on the old one, so it shows fully visible
   * and centred.
   */
  function SetContainerTo(s: State, present: bool): State {
    if present && !s.containerPresent then s.(containerPresent := true, frame := Frame(1, 0))
    else s.(containerPresent := present)
  }

  /** The enter tween's onComplete. */
  function EnterComplete(s: State): State {
    if s.tween.EnterTween? then s.(tween := NoTween, transitioning := false, frame := Frame(1, 0))
    else s
  }

  // ---------------------------------------------------------------------------
  // Input adapters

  /** The overview listener: `o`/`O` toggles the overview, `Escape` closes it when open. */
  function OverviewKey(s: State, key: string): State {
    var s1 := if key == "o" || key == "O" then s.(showOverview := !s.showOverview) else s;
    if key == "Escape" && s.showOverview then s1.(showOverview := false) else s1
  }

  /** A keydown reaches both window listeners: the navigation map, then the overview listener. */
  function OnKey(s: State, n: int, key: string): State {
    var s1 :=
      match KeyboardNav.HandleKeyDown(key).callback
      case OnNext => OnNext(s, n)
      case OnPrev => OnPrev(s, n)
      case _ => s;
    OverviewKey(s1, key)
  }

  function Abs(x: real): real { if x < 0.0 then -x else x }

  datatype Swipe = SwipeNext | SwipePrev | NoSwipe

  /** A touch is a swipe only when mostly horizontal and longer than 50 px; leftwards means next. */
  function ClassifySwipe(dx: real, dy: real): (w: Swipe)
    ensures w != NoSwipe <==> Abs(dx) > 50.0 && Abs(dx) > 2.0 * Abs(dy)
    ensures w == SwipeNext <==> Abs(dx) > 50.0 && Abs(dx) > 2.0 * Abs(dy) && dx < 0.0
  {
    if Abs(dx) > 50.0 && Abs(dx) > Abs(dy) * 2.0 then
      (if dx < 0.0 then SwipeNext else SwipePrev)
    else NoSwipe
  }

  /** handleTouchEnd: navigate on a swipe, and always forget the start point. */
  function OnTouchEnd(s: State, n: int, p: Point): State {
    match s.touchStart
    case None => s
    case Some(start) =>
      var s1 :=
        match ClassifySwipe(p.x - start.x, p.y - start.y)
        case SwipeNext => OnNext(s, n)
        case SwipePrev => OnPrev(s, n)
        case NoSwipe => s;
      s1.(touchStart := None)
  }

  /**
   * One event. The click zones and the overview button exist only in the
   * single-slide view; the thumbnails and the close button only in the overview.
   */
  function Step(s: State, n: int, e: Event): State {
    match e
    case GoTo(index) => GoToSlide(s, n, index)
    case ExitDone => ExitComplete(s)
    case LayoutEffect => RunLayoutEffect(s)
    case EnterDone => EnterComplete(s)
    case Key(key) => OnKey(s, n, key)
    case Thumbnail(index) => if s.showOverview then GoToSlide(s, n, index).(showOverview := false) else s
    case OverviewButton => if s.showOverview then s else s.(showOverview := true)
    case CloseButton => if s.showOverview then s.(showOverview := false) else s
    case PrevZone => if s.showOverview then s else OnPrev(s, n)
    case NextZone => if s.showOverview then s else OnNext(s, n)
    case TouchStart(p) => s.(touchStart := Some(p))
    case TouchEnd(p) => OnTouchEnd(s, n, p)
    case SetContainer(present) => SetContainerTo(s, present)
  }

  function Run(s: State, n: int, es: seq<Event>): State
    decreases |es|
  {
    if |es| == 0 then s else Run(Step(s, n, es[0]), n, es[1..])
  }

  // ---------------------------------------------------------------------------
  // Invariants

  /**
   * The reachable states: the current index is in range, and at most one
   * transition is in flight. Its phases (exit tween, awaiting the enter, enter
   * tween) exclude each other, each holds `isTransitioning`, and a released
   * guard means no phase is active.
   */
  predicate Inv(s: State, n: int) {
    && 0 <= s.current < n
    && (s.tween.ExitTween? ==>
          && s.transitioning && !s.awaitingEnter
          && 0 <= s.tween.target < n && s.tween.target != s.current
          && s.tween.direction == Direction(s.current, s.tween.target))
    && (s.tween.EnterTween? ==> s.transitioning && !s.awaitingEnter)
    && (s.awaitingEnter ==> s.transitioning)
    && (!s.transitioning ==> s.tween.NoTween? && !s.awaitingEnter)
  }

  lemma InitialInv(n: int, containerPresent: bool)
    requires n > 0
    ensures Inv(Initial(containerPresent), n)
  {
  }

  lemma GoToKeepsInv(s: State, n: int, index: int)
    requires Inv(s, n)
    ensures Inv(GoToSlide(s, n, index), n)
  {
  }

  lemma TransitionEventsKeepInv(s: State, n: int)
    requires Inv(s, n)
    ensures Inv(ExitComplete(s), n)
    ensures Inv(RunLayoutEffect(s), n)
    ensures Inv(EnterComplete(s), n)
  {
  }

  /** The overview listener touches only `showOverview`, which the invariant does not mention. */
  lemma OverviewKeyKeepsInv(s: State, n: int, key: string)
    requires Inv(s, n)
    ensures Inv(OverviewKey(s, key), n)
  {
  }

  lemma KeyKeepsInv(s: State, n: int, key: string)
    requires Inv(s, n)
    ensures Inv(OnKey(s, n, key), n)
  {
    var c := KeyboardNav.HandleKeyDown(key).callback;
    var s1 := if c == KeyboardNav.OnNext then OnNext(s, n) else if c == KeyboardNav.OnPrev then OnPrev(s, n) else s;
    GoToKeepsInv(s, n, s.current + 1);
    GoToKeepsInv(s, n, s.current - 1);
    OverviewKeyKeepsInv(s1, n, key);
  }

  lemma TouchEndKeepsInv(s: State, n: int, p: Point)
    requires Inv(s, n)
    ensures Inv(OnTouchEnd(s, n, p), n)
  {
    GoToKeepsInv(s, n, s.current + 1);
    GoToKeepsInv(s, n, s.current - 1);
  }

  lemma StepKeepsInv(s: State, n: int, e: Event)
    requires Inv(s, n)
    ensures Inv(Step(s, n, e), n)
  {
    match e
    case GoTo(index) => GoToKeepsInv(s, n, index);
    case Thumbnail(index) => GoToKeepsInv(s, n, index);
    case PrevZone => GoToKeepsInv(s, n, s.current - 1);
    case NextZone => GoToKeepsInv(s, n, s.current + 1);
    case Key(key) => KeyKeepsInv(s, n, key);
    case TouchEnd(p) => TouchEndKeepsInv(s, n, p);
    case _ => TransitionEventsKeepInv(s, n);
  }

  /** The container hidden at an entry offset, ready for the enter tween. */
  predicate Parked(f: Frame) {
    f.opacity == 0 && (f.x == 40 || f.x == -40)
  }

  /**
   * The flash fix: the exit's completion parks the container before the swap,
   * and while the enter is awaited it stays parked under every event except a
   * newly mounted container.
   */
  lemma ParkedUntilRemount(s: State, n: int, e: Event)
    requires Inv(s, n)
    requires s.awaitingEnter ==> Parked(s.frame)
    requires e == SetContainer(true) ==> s.containerPresent
    ensures Step(s, n, e).awaitingEnter ==> Parked(Step(s, n, e).frame)
  {
    if !(e.ExitDone? || e.LayoutEffect? || e.EnterDone? || e.SetContainer?) {
      InputKeepsFrame(s, n, e);
    }
  }

  /** Input events neither move the container's end values nor start awaiting the enter. */
  lemma InputKeepsFrame(s: State, n: int, e: Event)
    requires !(e.ExitDone? || e.LayoutEffect? || e.EnterDone? || e.SetContainer?)
    ensures Step(s, n, e).frame == s.frame && Step(s, n, e).awaitingEnter == s.awaitingEnter
  {
    match e
    case GoTo(index) => GoToKeepsFrame(s, n, index);
    case Thumbnail(index) => GoToKeepsFrame(s, n, index);
    case Key(key) => KeyKeepsFrame(s, n, key);
    case TouchEnd(p) =>
      GoToKeepsFrame(s, n, s.current + 1);
      GoToKeepsFrame(s, n, s.current - 1);
    case PrevZone => GoToKeepsFrame(s, n, s.current - 1);
    case NextZone => GoToKeepsFrame(s, n, s.current + 1);
    case _ =>
  }

  lemma KeyKeepsFrame(s: State, n: int, key: string)
    ensures OnKey(s, n, key).frame == s.frame && OnKey(s, n, key).awaitingEnter == s.awaitingEnter
  {
    var c := KeyboardNav.HandleKeyDown(key).callback;
    var s1 := if c == KeyboardNav.OnNext then OnNext(s, n) else if c == KeyboardNav.OnPrev then OnPrev(s, n) else s;
    GoToKeepsFrame(s, n, s.current + 1);
    GoToKeepsFrame(s, n, s.current - 1);
    assert OnKey(s, n, key) == OverviewKey(s1, key);
    assert OverviewKey(s1, key) == s1.(showOverview := OverviewKey(s1, key).showOverview);
  }

  /** goToSlide neither moves the container's end values nor starts awaiting the enter. */
  lemma GoToKeepsFrame(s: State, n: int, index: int)
    ensures GoToSlide(s, n, index).frame == s.frame
    ensures GoToSlide(s, n, index).awaitingEnter == s.awaitingEnter
  {
  }

  /**
   * A container mounted while the enter is awaited is not parked: after the
   * overview has replaced the view and closed again, the incoming slide is
   * shown at full opacity before the enter tween starts.
   */
  lemma RemountShowsIncomingSlide()
    ensures var s := Run(Initial(true), 2, [GoTo(1), ExitDone, SetContainer(false), SetContainer(true)]);
            s.awaitingEnter && s.current == 1 && s.layoutDue && s.frame == Frame(1, 0)
  {
    var s1 := Step(Initial(true), 2, GoTo(1));
    var s2 := Step(s1, 2, ExitDone);
    var s3 := Step(s2, 2, SetContainer(false));
    var s4 := Step(s3, 2, SetContainer(true));
    assert s4.awaitingEnter && s4.frame == Frame(1, 0);
    assert Run(Initial(true), 2, [GoTo(1), ExitDone, SetContainer(false), SetContainer(true)]) == s4 by {
      assert [GoTo(1), ExitDone, SetContainer(false), SetContainer(true)][1..] == [ExitDone, SetContainer(false), SetContainer(true)];
      assert [ExitDone, SetContainer(false), SetContainer(true)][1..] == [SetContainer(false), SetContainer(true)];
      assert [SetContainer(false), SetContainer(true)][1..] == [SetContainer(true)];
    }
  }

  /**
   * Only the enter's completion ends a transition once the exit is over:
   * while the enter is awaited or its tween runs, no other event releases the guard.
   */
  lemma EnterPhaseReleasedOnlyByEnterDone(s: State, n: int, e: Event)
    requires Inv(s, n) && (s.awaitingEnter || s.tween.EnterTween?)
    requires !Step(s, n, e).transitioning
    ensures e == EnterDone && s.tween.EnterTween?
  {
  }

  /** Bounds and at-most-one-transition hold after any sequence of events. */
  lemma {:induction false} RunKeepsInv(s: State, n: int, es: seq<Event>)
    requires Inv(s, n)
    ensures Inv(Run(s, n, es), n)
    ensures 0 <= Run(s, n, es).current < n
    decreases |es|
  {
    if |es| > 0 {
      StepKeepsInv(s, n, es[0]);
      RunKeepsInv(Step(s, n, es[0]), n, es[1..]);
    }
  }

  /** From mount, whatever the events, the current slide stays within the deck. */
  lemma CurrentStaysInDeck(n: int, containerPresent: bool, es: seq<Event>)
    requires n > 0
    ensures 0 <= Run(Initial(containerPresent), n, es).current < n
  {
    InitialInv(n, containerPresent);
    RunKeepsInv(Initial(containerPresent), n, es);
  }

  // ---------------------------------------------------------------------------
  // goToSlide

  /** Out-of-range targets are ignored, and there is no wrap-around at either end. */
  lemma BoundaryNoOps(s: State, n: int)
    requires Inv(s, n)
    ensures GoToSlide(s, n, -1) == s && GoToSlide(s, n, n) == s
    ensures s.current == 0 ==> OnPrev(s, n) == s
    ensures s.current == n - 1 ==> OnNext(s, n) == s
  {
  }

  /** The exit moves against the direction of travel; the parking offset is its exact negation. */
  lemma OffsetsOppose(current: int, index: int)
    ensures ExitOffset(Direction(current, index)) == (if index > current then -40 else 40)
    ensures EntryOffset(Direction(current, index)) == -ExitOffset(Direction(current, index))
  {
  }

  /**
   * While a transition is running, navigation input is dropped, not queued:
   * neither the current slide nor the transition's progress changes.
   */
  lemma InputWhileTransitioningIsDropped(s: State, n: int, e: Event)
    requires s.transitioning
    requires e.GoTo? || e.Key? || e.Thumbnail? || e.PrevZone? || e.NextZone? || e.TouchEnd?
    ensures Step(s, n, e).current == s.current
    ensures Step(s, n, e).transitioning && Step(s, n, e).tween == s.tween
    ensures Step(s, n, e).awaitingEnter == s.awaitingEnter
  {
    if e.Key? {
      var c := KeyboardNav.HandleKeyDown(e.key).callback;
      var s1 := if c == KeyboardNav.OnNext then OnNext(s, n) else if c == KeyboardNav.OnPrev then OnPrev(s, n) else s;
      assert s1 == s;
      assert OnKey(s, n, e.key) == OverviewKey(s, e.key);
    }
  }

  /** The slide a running transition will land on. */
  function Target(s: State): int {
    if s.tween.ExitTween? then s.tween.target else s.current
  }

  /** Steps a run of events until the guard is released (or the events run out). */
  function RunWhileBusy(s: State, n: int, es: seq<Event>): State
    decreases |es|
  {
    if |es| == 0 || !s.transitioning then s else RunWhileBusy(Step(s, n, es[0]), n, es[1..])
  }

  lemma StepKeepsTarget(s: State, n: int, e: Event)
    requires Inv(s, n) && s.transitioning
    ensures Target(Step(s, n, e)) == Target(s)
    ensures Step(s, n, e).current == s.current || Step(s, n, e).current == Target(s)
  {
  }

  /**
   * The first accepted call decides where a transition lands: until the guard
   * is released the current slide is either the old one or that target, and
   * when it is released the current slide is the target.
   */
  lemma {:induction false} BusyRunLandsOnTarget(s: State, n: int, es: seq<Event>)
    requires Inv(s, n) && s.transitioning
    ensures Target(RunWhileBusy(s, n, es)) == Target(s)
    ensures RunWhileBusy(s, n, es).current == s.current || RunWhileBusy(s, n, es).current == Target(s)
    ensures !RunWhileBusy(s, n, es).transitioning ==> RunWhileBusy(s, n, es).current == Target(s)
    decreases |es|
  {
    if |es| > 0 {
      var s1 := Step(s, n, es[0]);
      StepKeepsTarget(s, n, es[0]);
      StepKeepsInv(s, n, es[0]);
      if s1.transitioning {
        BusyRunLandsOnTarget(s1, n, es[1..]);
      }
    }
  }

  /**
   * With the container attached throughout, an accepted goToSlide runs exit,
   * hidden swap, layout effect and enter, and only the enter's completion
   * releases the guard, leaving the container visible and centred.
   */
  lemma CompleteTransition(s: State, n: int, k: int)
    requires Inv(s, n) && Accepts(s, n, k) && s.containerPresent
    ensures var a := Step(s, n, GoTo(k));
            var b := Step(a, n, ExitDone);
            var c := Step(b, n, LayoutEffect);
            var d := Step(c, n, EnterDone);
            && a.current == s.current && a.transitioning
            && a.tween == ExitTween(k, Direction(s.current, k))
            && b.current == k && b.transitioning && b.awaitingEnter
            && b.frame == Frame(0, -ExitOffset(Direction(s.current, k)))
            && c.current == k && c.transitioning && !c.awaitingEnter && c.tween == EnterTween
            && d.current == k && !d.transitioning && d.tween == NoTween && d.frame == Frame(1, 0)
  {
  }

  /**
   * The no-container fallbacks: at the start of goToSlide and at the exit's
   * completion the swap happens at once and the guard is released.
   */
  lemma MissingContainerFallbacks(s: State, n: int, k: int)
    requires Inv(s, n) && !s.containerPresent
    ensures Accepts(s, n, k) ==> Step(s, n, GoTo(k)).current == k && !Step(s, n, GoTo(k)).transitioning
    ensures s.tween.ExitTween? ==>
      Step(s, n, ExitDone).current == s.tween.target && !Step(s, n, ExitDone).transitioning
  {
  }

  /**
   * The layout effect's early return when the container is absent keeps
   * `awaitingEnter` and `isTransitioning` set and does not run again until
   * `currentSlide` changes, which the guard then forbids. Such a state is
   * closed under every event: the deck stays on its slide for good.
   */
  predicate Stuck(s: State) {
    s.transitioning && s.awaitingEnter && !s.layoutDue && s.tween.NoTween?
  }

  lemma StuckIsClosed(s: State, n: int, e: Event)
    requires Stuck(s)
    ensures Stuck(Step(s, n, e)) && Step(s, n, e).current == s.current
  {
  }

  /** A two-slide deck reaches the stuck state when the container detaches between swap and layout effect. */
  lemma StuckIsReachable()
    ensures Stuck(Run(Initial(true), 2, [GoTo(1), ExitDone, SetContainer(false), LayoutEffect]))
  {
    var es := [GoTo(1), ExitDone, SetContainer(false), LayoutEffect];
    var s0 := Initial(true);
    var s1 := Step(s0, 2, es[0]);
    var s2 := Step(s1, 2, es[1]);
    var s3 := Step(s2, 2, es[2]);
    var s4 := Step(s3, 2, es[3]);
    assert Run(s4, 2, []) == s4;
    assert Run(s3, 2, es[3..]) == s4;
    assert Run(s2, 2, es[2..]) == s4;
    assert Run(s1, 2, es[1..]) == s4;
  }

  // ---------------------------------------------------------------------------
  // Input adapters

  /** Three rapid "next" keys on a five-slide deck: only the first is accepted. */
  lemma RapidNextKeys()
    ensures var es := [Key("ArrowRight"), Key("ArrowRight"), Key("ArrowRight"), ExitDone, LayoutEffect, EnterDone];
            var t := Run(Initial(true), 5, es);
            t.current == 1 && !t.transitioning
  {
    var es := [Key("ArrowRight"), Key("ArrowRight"), Key("ArrowRight"), ExitDone, LayoutEffect, EnterDone];
    var s := Initial(true);
    var s1 := Step(s, 5, es[0]);
    assert s1.tween == ExitTween(1, 1);
    var s2 := Step(s1, 5, es[1]);
    var s3 := Step(s2, 5, es[2]);
    assert s3 == s1;
    var s4 := Step(s3, 5, es[3]);
    var s5 := Step(s4, 5, es[4]);
    var s6 := Step(s5, 5, es[5]);
    assert s6.current == 1 && !s6.transitioning;
    assert Run(s6, 5, []) == s6;
    assert Run(s5, 5, es[5..]) == s6;
    assert Run(s4, 5, es[4..]) == s6;
    assert Run(s3, 5, es[3..]) == s6;
    assert Run(s2, 5, es[2..]) == s6;
    assert Run(s1, 5, es[1..]) == s6;
  }

  /**
   * The navigation keys drive onNext and onPrev; every other key except the
   * overview keys leaves the state alone.
   */
  lemma KeysDriveNavigation(s: State, n: int, key: string)
    requires key != "o" && key != "O" && key != "Escape"
    ensures key in KeyboardNav.NextKeys ==> Step(s, n, Key(key)) == OnNext(s, n)
    ensures key in KeyboardNav.PrevKeys ==> Step(s, n, Key(key)) == OnPrev(s, n)
    ensures key !in KeyboardNav.NextKeys + KeyboardNav.PrevKeys ==> Step(s, n, Key(key)) == s
  {
  }

  /** The swipe thresholds on the two documented gestures. */
  lemma SwipeExamples()
    ensures ClassifySwipe(-60.0, 10.0) == SwipeNext
    ensures ClassifySwipe(60.0, 10.0) == SwipePrev
    ensures ClassifySwipe(60.0, 40.0) == NoSwipe
    ensures ClassifySwipe(-50.0, 0.0) == NoSwipe
  {
  }

  /** A touch end navigates by the swipe's classification and always forgets the start point. */
  lemma TouchEndBehaviour(s: State, n: int, p: Point)
    ensures Step(s, n, TouchEnd(p)).touchStart == None
    ensures s.touchStart.None? ==> Step(s, n, TouchEnd(p)) == s
    ensures s.touchStart.Some? ==>
      var w := ClassifySwipe(p.x - s.touchStart.value.x, p.y - s.touchStart.value.y);
      && (w == SwipeNext ==> Step(s, n, TouchEnd(p)) == OnNext(s, n).(touchStart := None))
      && (w == SwipePrev ==> Step(s, n, TouchEnd(p)) == OnPrev(s, n).(touchStart := None))
      && (w == NoSwipe ==> Step(s, n, TouchEnd(p)) == s.(touchStart := None))
  {
  }

  /** `o` or `O` toggles the overview and nothing else; pressing it twice is the identity. */
  lemma OverviewToggle(s: State, n: int, key: string)
    requires key == "o" || key == "O"
    ensures Step(s, n, Key(key)) == s.(showOverview := !s.showOverview)
    ensures Step(Step(s, n, Key(key)), n, Key(key)) == s
  {
  }

  /** Escape only ever closes the overview. */
  lemma EscapeOnlyCloses(s: State, n: int)
    ensures Step(s, n, Key("Escape")) == s.(showOverview := false)
  {
  }

  /**
   * A thumbnail click calls goToSlide and then always closes the overview. In
   * the overview the slide container is unmounted, so an accepted click lands
   * on its slide at once.
   */
  lemma ThumbnailSelects(s: State, n: int, k: int)
    requires s.showOverview
    ensures Step(s, n, Thumbnail(k)) == GoToSlide(s, n, k).(showOverview := false)
    ensures !s.containerPresent && Accepts(s, n, k) ==>
      Step(s, n, Thumbnail(k)).current == k && !Step(s, n, Thumbnail(k)).transitioning
  {
  }
}

=== FILE: progress_bar.dfy ===
/**
 * The progress bar (src/components/ui/ProgressBar.tsx): the width of the bar,
 * the "current / total" counter and the module label. Widths are exact reals;
 * JavaScript's division by zero is spelled out.
 */
module ProgressBar {
  import opened Wrappers
  import SlideData

  /** A JavaScript number as far as the width can produce one. */
  datatype Width = Finite(percent: real) | Infinity(positive: bool) | NaN

  /** `((current + 1) / total) * 100`. */
  function Progress(current: int, total: int): (w: Width)
    ensures w.Finite? <==> total != 0
    ensures w == NaN <==> total == 0 && current == -1
    ensures w.Finite? ==> w.percent * total as real == (current + 1) as real * 100.0
  {
    if total != 0 then Finite((current + 1) as real / total as real * 100.0)
    else if current + 1 == 0 then NaN
    else Infinity(current + 1 > 0)
  }

  /** A quotient of positive reals is in (0, 1], and 1 exactly when they are equal. */
  lemma {:induction false} UnitQuotient(c: real, t: real)
    requires 0.0 < c <= t
    ensures 0.0 < c / t <= 1.0
    ensures c / t == 1.0 <==> c == t
  {
    var q := c / t;
    assert q * t == c;
  }

  /** On a slide of the deck the bar is partly or fully drawn, and full exactly on the last slide. */
  lemma {:induction false} ProgressBounds(current: int, total: int)
    requires 0 <= current < total
    ensures Progress(current, total).Finite?
    ensures 0.0 < Progress(current, total).percent <= 100.0
    ensures Progress(current, total).percent == 100.0 <==> current == total - 1
  {
    var c := (current + 1) as real;
    var t := total as real;
    UnitQuotient(c, t);
    assert Progress(current, total).percent == c / t * 100.0;
  }

  /** Later slides have strictly wider bars. */
  lemma ProgressIncreases(a: int, b: int, total: int)
    requires a < b && total > 0
    ensures Progress(a, total).percent < Progress(b, total).percent
  {
    var pa := Progress(a, total).percent;
    var pb := Progress(b, total).percent;
    assert pa * total as real < pb * total as real;
  }

  /** The counter `{current + 1} / {total}`: a one-based position within the deck. */
  function Counter(current: int, total: int): (r: (int, int))
    ensures 0 <= current < total ==> 1 <= r.0 <= r.1 && r.1 == total
    ensures r.0 - 1 == current
  {
    (current + 1, total)
  }

  /** `modules.find(m => m.number === n)`: the first registry entry numbered `n`. */
  function Find(mods: seq<SlideData.Module>, n: int): (r: Option<SlideData.Module>)
    ensures r.None? <==> forall i :: 0 <= i < |mods| ==> mods[i].number != n
    ensures r.Some? ==> exists i :: (0 <= i < |mods| && mods[i] == r.value && r.value.number == n &&
      forall j :: 0 <= j < i ==> mods[j].number != n)
    decreases |mods|
  {
    if |mods| == 0 then None
    else if mods[0].number == n then Some(mods[0])
    else
      var r := Find(mods[1..], n);
      if r.Some? then
        var i :| 0 <= i < |mods[1..]| && mods[1..][i] == r.value && r.value.number == n &&
          forall j :: 0 <= j < i ==> mods[1..][j].number != n;
        assert mods[i + 1] == r.value;
        r
      else r
  }

  /** `currentModule ? modules.find(...) : null`: nothing for an absent or zero module number. */
  function ModuleLabel(currentModule: Option<int>): (r: Option<SlideData.Module>)
    ensures r.Some? ==> currentModule.Some? && currentModule.value != 0 && r.value in SlideData.Modules
    ensures r.Some? ==> r.value.number == currentModule.value
  {
    if currentModule.None? || currentModule.value == 0 then None
    else Find(SlideData.Modules, currentModule.value)
  }

  /**
   * The label appears exactly for the registry's numbers; the truthiness test
   * changes nothing, since no registry entry is numbered 0.
   */
  lemma ModuleLabelShown(currentModule: Option<int>)
    ensures ModuleLabel(currentModule).Some? <==> currentModule.Some? && 1 <= currentModule.value <= 4
    ensures currentModule.Some? ==> ModuleLabel(currentModule) == Find(SlideData.Modules, currentModule.value)
  {
  }
}

=== FILE: risk_framework.dfy ===
/**
 * The risk framework visualization (src/components/visualizations/RiskFramework.tsx):
 * five category cards of which at most one is expanded to show its prevention
 * strategy, a click toggling the clicked card, and deactivation collapsing
 * everything and re-arming the entrance.
 */
module RiskFramework {
  import opened Wrappers
  import SlideAnimation

  /** The card categories, in display order; each card is keyed by its category. */
  const Categories: seq<string> := [
    "Data Privacy & Security", "Accuracy & Reliability", "Bias & Fairness",
    "Regulatory & Compliance", "Organizational"
  ]

  lemma CategoriesAreDistinctKeys()
    ensures |Categories| == 5
    ensures forall i, j :: 0 <= i < j < |Categories| ==> Categories[i] != Categories[j]
  {
  }

  /** `expandedIndex` and the entrance guard. */
  datatype State = State(expanded: Option<nat>, guard: SlideAnimation.Guard)

  /** `useState<number | null>(null)` and a fresh guard. */
  const Initial: State := State(None, SlideAnimation.Fresh)

  /** The reachable states: the guard is valid and an expanded index names a card. */
  predicate Inv(s: State) {
    SlideAnimation.Valid(s.guard) && (s.expanded.Some? ==> s.expanded.value < |Categories|)
  }

  lemma InitialInv()
    ensures Inv(Initial) && Initial.expanded.None?
  {
  }

  /** `expandedIndex === i ? null : i`. */
  function Toggle(expanded: Option<nat>, i: nat): (r: Option<nat>)
    ensures r.Some? <==> expanded != Some(i)
    ensures r.Some? ==> r.value == i
  {
    if expanded == Some(i) then None else Some(i)
  }

  /** A click on card `i`. */
  function Click(s: State, i: nat): (r: State)
    requires i < |Categories|
    ensures r.guard == s.guard
    ensures r.expanded == Some(i) <==> s.expanded != Some(i)
    ensures r.expanded.None? <==> s.expanded == Some(i)
    ensures Inv(s) ==> Inv(r)
  {
    s.(expanded := Toggle(s.expanded, i))
  }

  /**
   * Clicking the same card twice restores the previous state exactly when no
   * other card was expanded before; after a different card was open, the two
   * clicks leave everything collapsed.
   */
  lemma ClickTwice(s: State, i: nat)
    requires i < |Categories|
    ensures Click(Click(s, i), i) == s <==> s.expanded.None? || s.expanded == Some(i)
    ensures Click(Click(s, i), i).expanded.None? || Click(Click(s, i), i).expanded == Some(i)
  {
  }

  /** How card `i` is drawn: spanning two grid columns, with its prevention text. */
  datatype CardView = CardView(spansTwoColumns: bool, showsPrevention: bool)

  function View(expanded: Option<nat>, i: nat): (v: CardView)
    ensures v.showsPrevention <==> expanded == Some(i)
    ensures v.spansTwoColumns == v.showsPrevention
  {
    var open := expanded == Some(i);
    CardView(open, open)
  }

  /**
   * At most one card is expanded at any time. This holds by construction: the
   * state is one optional index (`expandedIndex`), which names at most one card.
   */
  lemma AtMostOneExpanded(expanded: Option<nat>, i: nat, j: nat)
    requires View(expanded, i).showsPrevention && View(expanded, j).showsPrevention
    ensures i == j
  {
  }

  /**
   * One commit: the entrance effect (dependency `[isActive]`) and the reset
   * effect, which on deactivation clears both `hasAnimated` and `expandedIndex`.
   * The second component says whether the entrance ran.
   */
  function Commit(s: State, isActive: bool, container: bool): (r: (State, bool))
    ensures Inv(s) ==> Inv(r.0)
    ensures isActive ==> r.0.expanded == s.expanded
    ensures r.1 <==> SlideAnimation.EntranceEffectRuns(s.guard, SlideAnimation.Commit(isActive, "", container))
                     && isActive && container && !s.guard.hasAnimated
  {
    var c := SlideAnimation.Commit(isActive, "", container);
    var o := SlideAnimation.Render(s.guard, c);
    var reset := SlideAnimation.ResetEffectRuns(s.guard, c) && !isActive;
    (State(if reset then None else s.expanded, o.guard), o.fired)
  }

  /** Leaving the slide collapses the expanded card and re-arms the entrance. */
  lemma DeactivationResets(s: State, container: bool)
    requires Inv(s) && s.guard.mounted && s.guard.lastActive
    ensures Commit(s, false, container).0.expanded.None?
    ensures !Commit(s, false, container).0.guard.hasAnimated
    ensures !Commit(s, false, container).1
  {
  }

  /** Coming back after leaving runs the entrance again, with every card collapsed. */
  lemma ReturnStartsCollapsed(s: State, offContainer: bool)
    requires Inv(s) && s.guard.mounted && s.guard.lastActive
    ensures var back := Commit(Commit(s, false, offContainer).0, true, true);
            back.1 && back.0.expanded.None?
  {
  }
}

=== FILE: slide_animation.dfy ===
/**
 * The one-shot entrance guard shared by every slide renderer
 * (src/hooks/useSlideAnimation.ts and its copies in the slide components).
 *
 * A renderer instance keeps a `hasAnimated` ref and two effects:
 *  - the entrance effect, re-run by React whenever its dependency list changes
 *    (`[isActive, slideId]` in the hook, `[isActive, layout]` in ListSlide,
 *    `[isActive]` elsewhere), which starts the entrance timeline only when the
 *    slide is active, its container is attached and `hasAnimated` is false,
 *    and then sets `hasAnimated`;
 *  - the reset effect, re-run whenever `isActive` changes, which clears
 *    `hasAnimated` when the slide is inactive.
 * React scheduling is replaced by explicit commits: each `Commit` is one render
 * of the instance, carrying the values of the effects' dependencies and whether
 * the container ref is attached.
 */
module SlideAnimation {
  import opened Wrappers

  /**
   * The per-instance bookkeeping: whether the instance has committed before, the
   * `hasAnimated` ref, and the dependency values of the previous commit. `key`
   * stands for the entrance effect's dependency besides `isActive` (the slide id,
   * the list layout, or the empty string for renderers that depend on `isActive` alone).
   */
  datatype Guard = Guard(mounted: bool, hasAnimated: bool, lastActive: bool, lastKey: string)

  /** One render of the instance. */
  datatype Commit = Commit(isActive: bool, key: string, container: bool)

  /** The guard after a commit, and whether that commit started the entrance timeline. */
  datatype Outcome = Outcome(guard: Guard, fired: bool)

  /** A freshly mounted instance: `useRef(false)` and no previous commit. */
  const Fresh: Guard := Guard(false, false, false, "")

  /** React re-runs the entrance effect on mount and whenever one of its dependencies changed. */
  predicate EntranceEffectRuns(g: Guard, c: Commit) {
    !g.mounted || c.isActive != g.lastActive || c.key != g.lastKey
  }

  /** React re-runs the reset effect on mount and whenever `isActive` changed. */
  predicate ResetEffectRuns(g: Guard, c: Commit) {
    !g.mounted || c.isActive != g.lastActive
  }

  /**
   * The guard's reachable states: `hasAnimated` is never set on an instance that
   * has not committed, nor after a commit with `isActive` false.
   */
  predicate Valid(g: Guard) {
    (!g.mounted ==> !g.hasAnimated) && (g.mounted && !g.lastActive ==> !g.hasAnimated)
  }

  /** Runs both effects of one commit, in declaration order. */
  function Render(g: Guard, c: Commit): (r: Outcome)
    ensures r.fired <==> EntranceEffectRuns(g, c) && c.isActive && c.container && !g.hasAnimated
    ensures r.fired ==> r.guard.hasAnimated
    ensures c.isActive && g.hasAnimated ==> !r.fired && r.guard.hasAnimated
    ensures Valid(g) ==> Valid(r.guard)
    ensures Valid(g) && !c.isActive ==> !r.guard.hasAnimated
    ensures r.guard.mounted && r.guard.lastActive == c.isActive && r.guard.lastKey == c.key
  {
    var fired := EntranceEffectRuns(g, c) && c.isActive && c.container && !g.hasAnimated;
    var afterEntrance := if fired then true else g.hasAnimated;
    var afterReset := if ResetEffectRuns(g, c) && !c.isActive then false else afterEntrance;
    Outcome(Guard(true, afterReset, c.isActive, c.key), fired)
  }

  /** The guard after a sequence of commits. */
  function Run(g: Guard, cs: seq<Commit>): Guard
    decreases |cs|
  {
    if |cs| == 0 then g else Run(Render(g, cs[0]).guard, cs[1..])
  }

  /** How many of the commits in `cs` started the entrance timeline. */
  function Fires(g: Guard, cs: seq<Commit>): nat
    decreases |cs|
  {
    if |cs| == 0 then 0
    else (if Render(g, cs[0]).fired then 1 else 0) + Fires(Render(g, cs[0]).guard, cs[1..])
  }

  predicate AllActive(cs: seq<Commit>) {
    forall i :: 0 <= i < |cs| ==> cs[i].isActive
  }

  /** Once the entrance has run, commits that keep the slide active never run it again. */
  lemma {:induction false} AnimatedStaysQuiet(g: Guard, cs: seq<Commit>)
    requires g.hasAnimated && AllActive(cs)
    ensures Fires(g, cs) == 0
    ensures Run(g, cs).hasAnimated
    decreases |cs|
  {
    if |cs| > 0 {
      AnimatedStaysQuiet(Render(g, cs[0]).guard, cs[1..]);
    }
  }

  /**
   * While the slide stays active, re-renders (including a change of the
   * effect's other dependency) start the entrance at most once.
   */
  lemma {:induction false} ActiveRunFiresAtMostOnce(g: Guard, cs: seq<Commit>)
    requires AllActive(cs)
    ensures Fires(g, cs) <= 1
    ensures g.hasAnimated ==> Fires(g, cs) == 0
    decreases |cs|
  {
    if |cs| > 0 {
      var r := Render(g, cs[0]);
      if r.fired {
        AnimatedStaysQuiet(r.guard, cs[1..]);
      } else {
        ActiveRunFiresAtMostOnce(r.guard, cs[1..]);
      }
    }
  }

  /**
   * An activation (the first active commit after mount or after an inactive
   * commit) with the container attached starts the entrance exactly once over
   * any run of active commits.
   */
  lemma {:induction false} ActivationFiresOnce(g: Guard, cs: seq<Commit>)
    requires Valid(g) && (!g.mounted || !g.lastActive)
    requires |cs| > 0 && AllActive(cs) && cs[0].container
    ensures Fires(g, cs) == 1
  {
    var r := Render(g, cs[0]);
    assert r.fired;
    AnimatedStaysQuiet(r.guard, cs[1..]);
  }

  /** A commit that deactivates the slide re-arms the guard and starts nothing. */
  lemma DeactivationRearms(g: Guard, c: Commit)
    requires Valid(g) && !c.isActive
    ensures !Render(g, c).fired
    ensures !Render(g, c).guard.hasAnimated && !Render(g, c).guard.lastActive
  {
  }

  /** `Fires` and `Run` compose over concatenated runs. */
  lemma {:induction false} FiresAppend(g: Guard, xs: seq<Commit>, ys: seq<Commit>)
    ensures Fires(g, xs + ys) == Fires(g, xs) + Fires(Run(g, xs), ys)
    ensures Run(g, xs + ys) == Run(Run(g, xs), ys)
    decreases |xs|
  {
    if |xs| > 0 {
      assert (xs + ys)[0] == xs[0];
      assert (xs + ys)[1..] == xs[1..] + ys;
      FiresAppend(Render(g, xs[0]).guard, xs[1..], ys);
    } else {
      assert xs + ys == ys;
    }
  }

  /** `Valid` is kept by every run. */
  lemma {:induction false} RunKeepsValid(g: Guard, cs: seq<Commit>)
    requires Valid(g)
    ensures Valid(Run(g, cs))
    decreases |cs|
  {
    if |cs| > 0 {
      RunKeepsValid(Render(g, cs[0]).guard, cs[1..]);
    }
  }

  /**
   * Visit, leave, come back: whatever happened before, a deactivating commit
   * followed by an activation with the container attached starts the entrance
   * exactly once more over the second visit.
   */
  lemma ReactivationFiresAgain(g: Guard, before: seq<Commit>, off: Commit, after: seq<Commit>)
    requires Valid(g) && !off.isActive
    requires |after| > 0 && AllActive(after) && after[0].container
    ensures Fires(g, before + [off] + after) == Fires(g, before) + 1
  {
    FiresAppend(g, before + [off], after);
    FiresAppend(g, before, [off]);
    RunKeepsValid(g, before);
    var h := Run(g, before + [off]);
    assert h == Render(Run(g, before), off).guard;
    ActivationFiresOnce(h, after);
  }

  /**
   * A visit to a slide, as the deck renders it: a fresh instance (keyed by the
   * slide id) committed with `isActive` true and a fixed dependency key. When the
   * container is attached on the first commit, the entrance runs exactly once,
   * whatever happens to the container afterwards.
   */
  lemma VisitFiresOnce(key: string, containers: seq<bool>)
    requires |containers| > 0 && containers[0]
    ensures Fires(Fresh, seq(|containers|, i requires 0 <= i < |containers| => Commit(true, key, containers[i]))) == 1
  {
    var cs := seq(|containers|, i requires 0 <= i < |containers| => Commit(true, key, containers[i]));
    ActivationFiresOnce(Fresh, cs);
  }

  /**
   * The counter text written on each tick of a count-up: the `data-prefix`
   * attribute, the displayed number and the `data-suffix` attribute, where an
   * absent or empty attribute reads as the empty string.
   */
  function CounterText(prefixAttr: Option<string>, display: string, suffixAttr: Option<string>): (r: string)
    ensures |r| == |prefixAttr.GetOr("")| + |display| + |suffixAttr.GetOr("")|
    ensures r[..|prefixAttr.GetOr("")|] == prefixAttr.GetOr("")
    ensures r[|prefixAttr.GetOr("")|..|prefixAttr.GetOr("")| + |display|] == display
    ensures r[|prefixAttr.GetOr("")| + |display|..] == suffixAttr.GetOr("")
  {
    prefixAttr.GetOr("") + display + suffixAttr.GetOr("")
  }
}

=== FILE: slide_data.dfy ===
/**
 * The deck store: the ordered, immutable sequence of slide records and the
 * module registry (src/lib/slideData.ts). Only the fields that the renderers'
 * logic reads are kept: `id`, `type`, `module` (here `moduleNumber`, since `module` is a Dafny keyword), `visualization` and the
 * `value`/`prefix`/`suffix` of each stat. Titles, copy text, items, quotes and
 * labels are presentation and are not part of this model.
 */
module SlideData {
  import opened Wrappers

  /** One entry of a stat slide's `stats` list (its `label` is copy text and is left out). */
  datatype Stat = Stat(value: string, prefix: Option<string>, suffix: Option<string>)

  /** A slide record. `kind` is the `type` discriminator, kept as the string the renderer switches on. */
  datatype Slide = Slide(
    id: string,
    kind: string,
    moduleNumber: Option<int>,
    visualization: Option<string>,
    stats: Option<seq<Stat>>)

  /** A module registry entry (colour and duration are styling and are left out). */
  datatype Module = Module(number: int, title: string)

  /** The `type` values a slide may declare (the `SlideType` union). */
  const SlideTypes: set<string> := {
    "title", "module-divider", "content", "stat", "story", "interaction",
    "visualization", "framework", "matrix", "list", "case-study", "closing"
  }

  /** The slide types that are rendered by the visualization renderer. */
  const VisualTypes: set<string> := {"visualization", "framework", "matrix", "case-study"}

  /** The deck, in presentation order. */
  const Slides: seq<Slide> := [
      Slide("title", "title", None, None, None),
      Slide("facilitator-intro", "content", None, None, None),
      Slide("module-1", "module-divider", Some(1), None, None),
      Slide("ai-theater-problem", "stat", Some(1), None, Some([Stat("70", None, Some("%")), Stat("87", None, Some("%")), Stat("1", Some("#"), None)])),
      Slide("maturity-model", "visualization", Some(1), Some("maturity-model"), None),
      Slide("ai-theater-signs", "list", Some(1), None, None),
      Slide("predictive-maintenance-story", "story", Some(1), None, None),
      Slide("self-assessment", "interaction", Some(1), None, None),
      Slide("quick-wins-matrix", "matrix", Some(1), Some("impact-matrix"), None),
      Slide("quick-wins-list", "list", Some(1), None, None),
      Slide("strategic-bets-list", "list", Some(1), None, None),
      Slide("module-1-close", "story", Some(1), None, None),
      Slide("module-2", "module-divider", Some(2), None, None),
      Slide("strategy-failure-reasons", "list", Some(2), None, None),
      Slide("acku-framework", "framework", Some(2), Some("acku-pipeline"), None),
      Slide("learn-phase", "list", Some(2), None, None),
      Slide("plan-phase", "list", Some(2), None, None),
      Slide("build-phase", "list", Some(2), None, None),
      Slide("scale-phase", "list", Some(2), None, None),
      Slide("impact-feasibility-scoring", "interaction", Some(2), None, None),
      Slide("business-case-template", "list", Some(2), None, None),
      Slide("stakeholder-mapping", "list", Some(2), None, None),
      Slide("module-3", "module-divider", Some(3), None, None),
      Slide("pilot-trap", "stat", Some(3), None, Some([Stat("80", None, Some("%"))])),
      Slide("change-management-80", "stat", Some(3), None, Some([Stat("80", None, Some("%"))])),
      Slide("three-fears", "list", Some(3), None, None),
      Slide("adoption-curve", "visualization", Some(3), Some("adoption-curve"), None),
      Slide("practical-tactics", "interaction", Some(3), None, None),
      Slide("capability-model", "visualization", Some(3), Some("capability-tiers"), None),
      Slide("measuring-matters", "list", Some(3), None, None),
      Slide("case-study-timeline", "case-study", Some(3), Some("timeline"), None),
      Slide("key-lessons", "list", Some(3), None, None),
      Slide("module-4", "module-divider", Some(4), None, None),
      Slide("governance-before-scale", "stat", Some(4), None, Some([Stat("74", None, Some("%")), Stat("61", None, Some("%"))])),
      Slide("risk-framework", "visualization", Some(4), Some("risk-framework"), None),
      Slide("risk-tiers", "visualization", Some(4), Some("risk-tiers"), None),
      Slide("policy-templates", "interaction", Some(4), None, None),
      Slide("trust-equation", "visualization", Some(4), Some("trust-equation"), None),
      Slide("monday-commitment", "interaction", Some(4), None, None),
      Slide("contact-cta", "title", None, None, None)
  ]

  /** The module registry. */
  const Modules: seq<Module> := [
      Module(1, "Where Are You Now?"),
      Module(2, "Building Your Strategy"),
      Module(3, "Implementation That Sticks"),
      Module(4, "Governance First")
  ]
}

=== FILE: slide_renderer.dfy ===
/**
 * `SlideRenderer` (src/components/Presentation.tsx): the switch on a slide's
 * `type` that chooses the component drawing it.
 */
module SlideRenderer {
  import opened Wrappers
  import SlideData

  datatype Renderer =
    | TitleSlide | DividerSlide | StatSlide | QuoteSlide | StorySlide | ListSlide
    | InteractionSlide | VisualizationSlide | ContentSlide | ClosingSlide

  /**
   * The component for a slide with type `kind`, `layout` and `animation`.
   * Unknown types fall back to the generic content component.
   */
  function Dispatch(kind: string, layout: Option<string>, animation: Option<string>): (r: Renderer)
    ensures r == QuoteSlide || r == StorySlide <==> kind == "story"
    ensures kind == "story" ==>
      (r == QuoteSlide <==> layout == Some("quote-full") || animation == Some("typewriter"))
    ensures r == VisualizationSlide <==> kind in SlideData.VisualTypes
    ensures r == ListSlide <==> kind == "list"
    ensures r == StatSlide <==> kind == "stat"
    ensures kind !in SlideData.SlideTypes ==> r == ContentSlide
  {
    match kind
    case "title" => TitleSlide
    case "module-divider" => DividerSlide
    case "stat" => StatSlide
    case "story" =>
      if layout == Some("quote-full") || animation == Some("typewriter") then QuoteSlide else StorySlide
    case "list" => ListSlide
    case "interaction" => InteractionSlide
    case "visualization" => VisualizationSlide
    case "framework" => VisualizationSlide
    case "matrix" => VisualizationSlide
    case "case-study" => VisualizationSlide
    case "content" => ContentSlide
    case "closing" => ClosingSlide
    case _ => ContentSlide
  }
}

=== FILE: stat_slide.dfy ===
/**
 * The statistics renderer (src/components/slides/StatSlide.tsx): where a stat's
 * prefix is placed, the static text of its number and the number of grid columns.
 */
module StatSlide {
  import opened Wrappers
  import SlideData
  import SlideAnimation

  /** The two prefixes that are part of the number itself. */
  const InlinePrefixes: set<string> := {"$", "<$"}

  /**
   * One stat card: the caption shown above the number (when the prefix is a word
   * such as "#"), the prefix rendered inline before the number, the counter's
   * `data-prefix` and `data-suffix` attributes, and the text of the number.
   */
  datatype Card = Card(caption: Option<string>, inlinePrefix: string, dataPrefix: string, dataSuffix: string, text: string)

  /** `stat.prefix === '$' || stat.prefix === '<$' ? stat.prefix : ''`. */
  function InlinePrefix(prefix: Option<string>): (p: string)
    ensures p == "" || p in InlinePrefixes
    ensures p != "" <==> prefix.Some? && prefix.value in InlinePrefixes
    ensures p != "" ==> p == prefix.value
  {
    if prefix.Some? && prefix.value in InlinePrefixes then prefix.value else ""
  }

  /** The card rendered for one stat. */
  function CardFor(stat: SlideData.Stat): (c: Card)
    ensures c.caption.Some? <==>
      stat.prefix.Some? && stat.prefix.value != "" && stat.prefix.value !in InlinePrefixes
    ensures c.caption.Some? ==> c.caption.value == stat.prefix.value
    ensures c.dataPrefix == c.inlinePrefix && c.dataSuffix == stat.suffix.GetOr("")
    ensures |c.text| == |c.inlinePrefix| + |stat.value| + |c.dataSuffix|
    ensures c.text[..|c.inlinePrefix|] == c.inlinePrefix
    ensures c.text[|c.inlinePrefix|..|c.inlinePrefix| + |stat.value|] == stat.value
    ensures c.text[|c.inlinePrefix| + |stat.value|..] == c.dataSuffix
  {
    var inline := InlinePrefix(stat.prefix);
    var suffix := stat.suffix.GetOr("");
    var text := inline + stat.value + suffix;
    assert text[..|inline|] == inline;
    assert text[|inline|..|inline| + |stat.value|] == stat.value;
    assert text[|inline| + |stat.value|..] == suffix;
    Card(
      if stat.prefix.Some? && stat.prefix.value != "" && stat.prefix.value !in InlinePrefixes
      then Some(stat.prefix.value) else None,
      inline, inline, suffix, text)
  }

  /** How many places of a card show the prefix: the caption and the inline position. */
  function Placements(c: Card): nat {
    (if c.caption.Some? then 1 else 0) + (if c.inlinePrefix != "" then 1 else 0)
  }

  /**
   * A non-empty prefix appears exactly once, either as the caption or inline
   * before the number and in `data-prefix`; an absent or empty prefix appears nowhere.
   */
  lemma PrefixAppearsOnce(stat: SlideData.Stat)
    ensures stat.prefix.Some? && stat.prefix.value != "" ==>
      Placements(CardFor(stat)) == 1
      && (CardFor(stat).caption == Some(stat.prefix.value) || CardFor(stat).inlinePrefix == stat.prefix.value)
    ensures stat.prefix.None? || stat.prefix.value == "" ==>
      Placements(CardFor(stat)) == 0 && CardFor(stat).dataPrefix == ""
  {
  }

  // ---------------------------------------------------------------------------
  // The count-up's final text. For a whole-number value the counter ends on
  // `Math.round(parseFloat(value)).toString()`: the value's numeral without
  // leading zeros.

  /** A non-empty string of ASCII decimal digits: a stat value the count-up reads as a whole number. */
  predicate DecimalDigits(s: string) {
    |s| > 0 && forall i :: 0 <= i < |s| ==> '0' <= s[i] <= '9'
  }

  /** The numeral as `Number.prototype.toString` writes a whole number: "0", or no leading zero. */
  predicate Canonical(s: string) {
    s == "0" || (|s| > 0 && s[0] != '0')
  }

  function DigitValue(c: char): nat {
    if '0' <= c <= '9' then c as int - '0' as int else 0
  }

  /** The number a digit string denotes (`parseFloat` on such a string), read most significant digit first. */
  function Value(s: string): nat
    decreases |s|
  {
    if |s| == 0 then 0 else Value(s[..|s| - 1]) * 10 + DigitValue(s[|s| - 1])
  }

  function Pow10(k: nat): nat {
    if k == 0 then 1 else 10 * Pow10(k - 1)
  }

  /** How many zeros the string starts with. */
  function ZeroRun(s: string): (k: nat)
    ensures k <= |s|
    ensures k < |s| ==> s[k] != '0'
    ensures forall i :: 0 <= i < k ==> s[i] == '0'
  {
    if |s| > 0 && s[0] == '0' then 1 + ZeroRun(s[1..]) else 0
  }

  /** The string with its leading zeros removed. */
  function StripZeros(s: string): string {
    s[ZeroRun(s)..]
  }

  /** A leading zero does not change the number. */
  lemma {:induction false} LeadingZero(s: string)
    ensures Value("0" + s) == Value(s)
    decreases |s|
  {
    if |s| > 0 {
      var t := "0" + s;
      assert t[..|t| - 1] == "0" + s[..|s| - 1];
      LeadingZero(s[..|s| - 1]);
    }
  }

  /** Leading zeros, however many, do not change the number. */
  lemma {:induction false} StripZerosValue(s: string)
    ensures Value(StripZeros(s)) == Value(s)
    decreases |s|
  {
    if |s| > 0 && s[0] == '0' {
      assert StripZeros(s) == StripZeros(s[1..]);
      StripZerosValue(s[1..]);
      assert s == "0" + s[1..];
      LeadingZero(s[1..]);
    }
  }

  /** A numeral without leading zeros has exactly as many digits as its number needs. */
  lemma {:induction false} CanonicalMagnitude(s: string)
    requires DecimalDigits(s) && Canonical(s)
    ensures Value(s) < Pow10(|s|)
    ensures |s| > 1 ==> Pow10(|s| - 1) <= Value(s)
    decreases |s|
  {
    var p := s[..|s| - 1];
    if |s| > 1 {
      assert DecimalDigits(p) && Canonical(p) by {
        assert p[0] == s[0];
        if |p| == 1 { assert p == [s[0]]; }
      }
      CanonicalMagnitude(p);
      if |p| == 1 {
        assert Value(p) == Value(p[..0]) * 10 + DigitValue(p[0]);
        assert p[..0] == "";
      }
    }
  }

  /** Two numerals without leading zeros that denote the same number are the same string. */
  lemma {:induction false} CanonicalUnique(a: string, b: string)
    requires DecimalDigits(a) && Canonical(a) && DecimalDigits(b) && Canonical(b)
    requires Value(a) == Value(b)
    ensures a == b
    decreases |a|
  {
    CanonicalMagnitude(a);
    CanonicalMagnitude(b);
    if |a| < |b| {
      PowMonotone(|a|, |b| - 1);
    } else if |b| < |a| {
      PowMonotone(|b|, |a| - 1);
    } else if |a| == 1 {
      assert a == [a[0]] && b == [b[0]];
      assert a[..0] == "" && b[..0] == "";
    } else {
      var pa, pb := a[..|a| - 1], b[..|b| - 1];
      LastDigit(Value(pa), Value(pb), DigitValue(a[|a| - 1]), DigitValue(b[|b| - 1]));
      assert DecimalDigits(pa) && Canonical(pa) by {
        assert pa[0] == a[0];
        if |pa| == 1 { assert pa == [a[0]]; }
      }
      assert DecimalDigits(pb) && Canonical(pb) by {
        assert pb[0] == b[0];
        if |pb| == 1 { assert pb == [b[0]]; }
      }
      CanonicalUnique(pa, pb);
      assert a[|a| - 1] == b[|b| - 1];
      assert a == pa + [a[|a| - 1]] && b == pb + [b[|b| - 1]];
    }
  }

  /** The last digit and the rest of a numeral are determined by its number. */
  lemma LastDigit(x: nat, y: nat, dx: nat, dy: nat)
    requires dx < 10 && dy < 10 && x * 10 + dx == y * 10 + dy
    ensures x == y && dx == dy
  {
  }

  lemma {:induction false} PowMonotone(i: nat, j: nat)
    requires i <= j
    ensures Pow10(i) <= Pow10(j)
    decreases j
  {
    if i < j {
      PowMonotone(i, j - 1);
    }
  }

  /**
   * The counter's last display for a whole-number value: the numeral of the
   * same number without leading zeros ("0" when every digit is zero).
   */
  function FinalDisplay(v: string): (d: string)
    requires DecimalDigits(v)
    ensures DecimalDigits(d) && Canonical(d)
    ensures Value(d) == Value(v)
    ensures d == v <==> Canonical(v)
  {
    var t := StripZeros(v);
    StripZerosValue(v);
    if t == "" then
      assert Value(v) == 0 by { assert Value(StripZeros(v)) == Value(""); }
      "0"
    else
      assert DecimalDigits(t) by {
        forall i | 0 <= i < |t| ensures '0' <= t[i] <= '9' {
          assert t[i] == v[ZeroRun(v) + i];
        }
      }
      t
  }

  /** `toString` has one way of writing each whole number: any other numeral without leading zeros is the same string. */
  lemma FinalDisplayIsTheNumeral(v: string, w: string)
    requires DecimalDigits(v) && DecimalDigits(w) && Canonical(w) && Value(w) == Value(v)
    ensures w == FinalDisplay(v)
  {
    CanonicalUnique(w, FinalDisplay(v));
  }

  lemma FinalDisplayExamples()
    ensures FinalDisplay("80") == "80"
    ensures FinalDisplay("007") == "7"
    ensures FinalDisplay("000") == "0"
  {
    assert Canonical("80");
    assert ZeroRun("007") == 2 by { assert ZeroRun("7") == 0; }
    assert ZeroRun("000") == 3 by { assert ZeroRun("0") == 1 by { assert ZeroRun("") == 0; } }
  }

  /** The count-up of a whole-number stat ends on the card's static text. */
  predicate CountUpSettles(stat: SlideData.Stat) {
    DecimalDigits(stat.value) &&
    SlideAnimation.CounterText(Some(CardFor(stat).dataPrefix), FinalDisplay(stat.value), Some(CardFor(stat).dataSuffix))
      == CardFor(stat).text
  }

  /**
   * When the count-up of a whole-number stat settles, the counter's text equals
   * the card's static text exactly when the value has no leading zeros: "007"
   * settles on "7" and "000" on "0", changing the text the slide first showed.
   */
  lemma CountUpEndsOnStaticText(stat: SlideData.Stat)
    requires DecimalDigits(stat.value)
    ensures (SlideAnimation.CounterText(Some(CardFor(stat).dataPrefix), FinalDisplay(stat.value), Some(CardFor(stat).dataSuffix))
             == CardFor(stat).text) <==> Canonical(stat.value)
  {
    var c := CardFor(stat);
    var v := stat.value;
    var d := FinalDisplay(v);
    var r := SlideAnimation.CounterText(Some(c.dataPrefix), d, Some(c.dataSuffix));
    Pieces(r, c.dataPrefix, d, c.dataSuffix);
    Pieces(c.text, c.inlinePrefix, v, c.dataSuffix);
    assert r == c.text ==> d == v by {
      if r == c.text {
        assert |d| == |v|;
        MiddleOf(c.dataPrefix, d, v, c.dataSuffix);
      }
    }
  }

  /** A string cut into three slices is their concatenation. */
  lemma Pieces(t: string, a: string, m: string, b: string)
    requires |t| == |a| + |m| + |b|
    requires t[..|a|] == a && t[|a|..|a| + |m|] == m && t[|a| + |m|..] == b
    ensures t == a + m + b
  {
    assert t == t[..|a|] + t[|a|..|a| + |m|] + t[|a| + |m|..];
  }

  /** Equal concatenations with the same outer parts have the same middle. */
  lemma MiddleOf(a: string, m: string, m': string, b: string)
    requires |m| == |m'| && a + m + b == a + m' + b
    ensures m == m'
  {
    assert m == (a + m + b)[|a|..|a| + |m|];
    assert m' == (a + m' + b)[|a|..|a| + |m'|];
  }

  /** The cards of a stat slide (`slide.stats?.map(...)`), one per stat and in order. */
  function Cards(stats: Option<seq<SlideData.Stat>>): (cs: seq<Card>)
    ensures |cs| == |stats.GetOr([])|
    ensures forall i :: 0 <= i < |cs| ==> cs[i] == CardFor(stats.GetOr([])[i])
  {
    var xs := stats.GetOr([]);
    seq(|xs|, i requires 0 <= i < |xs| => CardFor(xs[i]))
  }

  datatype Columns = OneColumn | TwoColumns | ThreeColumns

  /** The grid: one column for a single stat, two for two, three otherwise (none included). */
  function Grid(stats: Option<seq<SlideData.Stat>>): (g: Columns)
    ensures g == OneColumn <==> |Cards(stats)| == 1
    ensures g == TwoColumns <==> |Cards(stats)| == 2
    ensures g == ThreeColumns <==> |Cards(stats)| != 1 && |Cards(stats)| != 2
  {
    var count := if stats.Some? then |stats.value| else 0;
    if count == 1 then OneColumn else if count == 2 then TwoColumns else ThreeColumns
  }
}

=== FILE: story_slide.dfy ===
/**
 * The story renderer (src/components/slides/StorySlide.tsx): the spotlight
 * value extracted from the quote and the layout choice.
 *
 * extractSpotlightValue runs the case-insensitive ECMAScript pattern
 *
 *   \d+ (?:,\d+)? (?:\+)? (?:-\d+)? \s* (?:hours?|minutes?|days?|weeks?|months?|years?|x|%|K|M)?
 *
 * (spaces added) and keeps the whole match. Every part after the leading
 * digits can match the empty string, so a backtracking matcher never
 * revisits an earlier choice: the match starts at the first digit and each
 * part takes the longest (for `?`, the present) alternative the text allows,
 * with the unit alternatives tried in source order. `Scan` is that matcher
 * written as a scanner; `Greedy` states the same conditions declaratively.
 */
module StorySlide {
  import opened Wrappers
  import SlideRenderer

  // ---------------------------------------------------------------------------
  // Character classes

  /** `\d`: the ASCII decimal digits only. */
  predicate IsDigit(c: char) {
    '0' <= c <= '9'
  }

  /** `\s`: ECMAScript WhiteSpace and LineTerminator code points. */
  predicate IsSpace(c: char) {
    c == '\t' || c == '\n' || c == '\U{000B}' || c == '\U{000C}' || c == '\r' || c == ' '
    || c == '\U{00A0}' || c == '\U{1680}' || ('\U{2000}' <= c <= '\U{200A}')
    || c == '\U{2028}' || c == '\U{2029}' || c == '\U{202F}' || c == '\U{205F}'
    || c == '\U{3000}' || c == '\U{FEFF}'
  }

  /**
   * The `/i` comparison key without the `u` flag. Only ASCII letters fold:
   * a non-ASCII character never canonicalises to an ASCII one.
   */
  function Fold(c: char): (f: char)
    ensures 'a' <= c <= 'z' || 'A' <= c <= 'Z' <==> 'a' <= f <= 'z'
    ensures 'A' <= c <= 'Z' ==> f as int == c as int + ('a' as int - 'A' as int)
    ensures !('A' <= c <= 'Z') ==> f == c
  {
    if 'A' <= c <= 'Z' then (c as int + 32) as char else c
  }

  // ---------------------------------------------------------------------------
  // The unit alternatives

  /** One unit alternative: a word, optionally followed by a greedy `s`. */
  datatype Unit = Unit(word: string, plural: bool)

  /** The six time words, each with an optional plural `s`. */
  const TimeUnits: seq<Unit> := [
    Unit("hour", true), Unit("minute", true), Unit("day", true), Unit("week", true),
    Unit("month", true), Unit("year", true)
  ]

  /** The four symbols, which take no plural. */
  const SymbolUnits: seq<Unit> := [Unit("x", false), Unit("%", false), Unit("K", false), Unit("M", false)]

  /** The unit alternatives in source order. */
  const Units: seq<Unit> := TimeUnits + SymbolUnits

  /** `w` occurs at position `i` of `s`, ignoring ASCII case. */
  predicate WordAt(s: string, i: nat, w: string) {
    i + |w| <= |s| && forall k :: 0 <= k < |w| ==> Fold(s[i + k]) == Fold(w[k])
  }

  /** Where alternative `u` ends when it matches at `i`. */
  function UnitEnd(s: string, i: nat, u: Unit): (e: Option<nat>)
    ensures e.Some? <==> WordAt(s, i, u.word)
    ensures e.Some? ==> i + |u.word| <= e.value <= |s|
    ensures e.Some? ==>
      (e.value == i + |u.word| || (u.plural && e.value == i + |u.word| + 1 && Fold(s[i + |u.word|]) == 's'))
    ensures e.Some? && u.plural && i + |u.word| < |s| && Fold(s[i + |u.word|]) == 's' ==>
      e.value == i + |u.word| + 1
  {
    if !WordAt(s, i, u.word) then None
    else
      var j := i + |u.word|;
      Some(if u.plural && j < |s| && Fold(s[j]) == 's' then j + 1 else j)
  }

  /** The end of the first alternative of `alts` that matches at `i`. */
  function FirstUnitEnd(s: string, i: nat, alts: seq<Unit>): (e: Option<nat>)
    ensures e.None? <==> forall j :: 0 <= j < |alts| ==> UnitEnd(s, i, alts[j]).None?
    ensures e.Some? ==> exists j :: (0 <= j < |alts| && UnitEnd(s, i, alts[j]) == e &&
      forall j' :: 0 <= j' < j ==> UnitEnd(s, i, alts[j']).None?)
    decreases |alts|
  {
    if |alts| == 0 then None
    else match UnitEnd(s, i, alts[0])
      case Some(e) =>
        assert UnitEnd(s, i, alts[0]) == Some(e);
        Some(e)
      case None =>
        var rest := FirstUnitEnd(s, i, alts[1..]);
        if rest.Some? then
          var j :| 0 <= j < |alts[1..]| && UnitEnd(s, i, alts[1..][j]) == rest &&
            forall j' :: 0 <= j' < j ==> UnitEnd(s, i, alts[1..][j']).None?;
          assert UnitEnd(s, i, alts[j + 1]) == rest;
          rest
        else
          rest
  }

  // ---------------------------------------------------------------------------
  // The scanner

  /** The end of the longest run of characters satisfying `digit` (or `space`) from `i`. */
  function DigitsEnd(s: string, i: nat): (j: nat)
    requires i <= |s|
    ensures i <= j <= |s|
    ensures forall k :: i <= k < j ==> IsDigit(s[k])
    ensures j == |s| || !IsDigit(s[j])
    decreases |s| - i
  {
    if i < |s| && IsDigit(s[i]) then DigitsEnd(s, i + 1) else i
  }

  function SpacesEnd(s: string, i: nat): (j: nat)
    requires i <= |s|
    ensures i <= j <= |s|
    ensures forall k :: i <= k < j ==> IsSpace(s[k])
    ensures j == |s| || !IsSpace(s[j])
    decreases |s| - i
  {
    if i < |s| && IsSpace(s[i]) then SpacesEnd(s, i + 1) else i
  }

  /** `(?:c\d+)?`: taken when `c` is followed by a digit, and then with every digit. */
  function GroupEnd(s: string, i: nat, c: char): (j: nat)
    requires i <= |s|
    ensures i <= j <= |s|
  {
    if i + 1 < |s| && s[i] == c && IsDigit(s[i + 1]) then DigitsEnd(s, i + 1) else i
  }

  /** Where the optional unit group ends when it is tried at `i`: after the first matching alternative, or at `i`. */
  function UnitCut(s: string, i: nat): (j: nat)
    ensures i <= j
  {
    var u := FirstUnitEnd(s, i, Units);
    if u.Some? then u.value else i
  }

  /** The boundaries between the parts of one match. */
  datatype Cuts = Cuts(digits: nat, group: nat, plus: nat, range: nat, space: nat, unit: nat)

  /** The match starting at digit position `p`. */
  function Scan(s: string, p: nat): (k: Cuts)
    requires p < |s| && IsDigit(s[p])
    ensures p < k.digits <= k.group <= k.plus <= k.range <= k.space <= k.unit <= |s|
  {
    var d := DigitsEnd(s, p);
    var g := GroupEnd(s, d, ',');
    var pl := if g < |s| && s[g] == '+' then g + 1 else g;
    var r := GroupEnd(s, pl, '-');
    var w := SpacesEnd(s, r);
    Cuts(d, g, pl, r, w, UnitCut(s, w))
  }

  // ---------------------------------------------------------------------------
  // The declarative reading of the pattern

  /** `s[i..j]` is a maximal (non-empty when `i < j`) run of digits. */
  predicate MaximalDigits(s: string, i: nat, j: nat) {
    i <= j <= |s| && (forall k :: i <= k < j ==> IsDigit(s[k])) && (j == |s| || !IsDigit(s[j]))
  }

  /** `(?:c\d+)?` matched greedily from `i` to `j`. */
  predicate GreedyGroup(s: string, i: nat, j: nat, c: char) {
    if i + 1 < |s| && s[i] == c && IsDigit(s[i + 1]) then i + 1 < j && MaximalDigits(s, i + 1, j)
    else j == i
  }

  /** The unit alternative chosen at `i`, ending at `j`: the first that matches, or none. */
  predicate FirstUnit(s: string, i: nat, j: nat) {
    FirstOf(s, i, Units, j)
  }

  /** Trying `alts` in order at `i` ends at `j`: after the first that matches, or at `i` when none does. */
  predicate FirstOf(s: string, i: nat, alts: seq<Unit>, j: nat) {
    (j == i && forall n :: 0 <= n < |alts| ==> UnitEnd(s, i, alts[n]).None?)
    || exists n :: 0 <= n < |alts| && UnitEnd(s, i, alts[n]) == Some(j)
         && forall n' :: 0 <= n' < n ==> UnitEnd(s, i, alts[n']).None?
  }

  /** `k` cuts `s[p..k.unit]` into the parts the backtracking matcher takes. */
  predicate Greedy(s: string, p: nat, k: Cuts) {
    p < k.digits && MaximalDigits(s, p, k.digits)
    && k.digits <= |s| && GreedyGroup(s, k.digits, k.group, ',')
    && k.group <= |s| && k.plus == (if k.group < |s| && s[k.group] == '+' then k.group + 1 else k.group)
    && k.plus <= |s| && GreedyGroup(s, k.plus, k.range, '-')
    && k.range <= k.space <= |s| && (forall i :: k.range <= i < k.space ==> IsSpace(s[i]))
    && (k.space == |s| || !IsSpace(s[k.space]))
    && FirstUnit(s, k.space, k.unit)
  }

  lemma GroupEndIsGreedy(s: string, i: nat, c: char)
    requires i <= |s|
    ensures GreedyGroup(s, i, GroupEnd(s, i, c), c)
  {
  }

  lemma FirstUnitEndIsFirstOf(s: string, i: nat, alts: seq<Unit>)
    ensures FirstOf(s, i, alts, var u := FirstUnitEnd(s, i, alts); if u.Some? then u.value else i)
  {
    var u := FirstUnitEnd(s, i, alts);
    if u.Some? {
      var n :| 0 <= n < |alts| && UnitEnd(s, i, alts[n]) == u &&
        forall n' :: 0 <= n' < n ==> UnitEnd(s, i, alts[n']).None?;
      assert UnitEnd(s, i, alts[n]) == Some(u.value);
    }
  }

  lemma FirstUnitEndIsFirst(s: string, i: nat)
    ensures FirstUnit(s, i, UnitCut(s, i))
  {
    FirstUnitEndIsFirstOf(s, i, Units);
  }

  /** The scanner's cuts satisfy the declarative conditions. */
  lemma ScanIsGreedy(s: string, p: nat)
    requires p < |s| && IsDigit(s[p])
    ensures Greedy(s, p, Scan(s, p))
  {
    var k := Scan(s, p);
    assert MaximalDigits(s, p, k.digits);
    GroupEndIsGreedy(s, k.digits, ',');
    GroupEndIsGreedy(s, k.plus, '-');
    FirstUnitEndIsFirst(s, k.space);
  }

  lemma MaximalDigitsUnique(s: string, i: nat, j1: nat, j2: nat)
    requires MaximalDigits(s, i, j1) && MaximalDigits(s, i, j2)
    ensures j1 == j2
  {
  }

  lemma GroupIsGreedy(s: string, i: nat, j: nat, c: char)
    requires i <= |s| && GreedyGroup(s, i, j, c)
    ensures j == GroupEnd(s, i, c)
  {
    if i + 1 < |s| && s[i] == c && IsDigit(s[i + 1]) {
      MaximalDigitsUnique(s, i + 1, j, DigitsEnd(s, i + 1));
    }
  }

  lemma SpacesUnique(s: string, i: nat, j: nat)
    requires i <= j <= |s| && (forall k :: i <= k < j ==> IsSpace(s[k])) && (j == |s| || !IsSpace(s[j]))
    ensures j == SpacesEnd(s, i)
  {
  }

  /** Two alternatives that are each the first to match at `i` are the same one. */
  lemma FirstMatchUnique(s: string, i: nat, alts: seq<Unit>, m: nat, n: nat)
    requires m < |alts| && UnitEnd(s, i, alts[m]).Some? && forall m' :: 0 <= m' < m ==> UnitEnd(s, i, alts[m']).None?
    requires n < |alts| && UnitEnd(s, i, alts[n]).Some? && forall n' :: 0 <= n' < n ==> UnitEnd(s, i, alts[n']).None?
    ensures m == n
  {
  }

  lemma FirstOfUnique(s: string, i: nat, alts: seq<Unit>, j: nat)
    requires FirstOf(s, i, alts, j)
    ensures j == (var u := FirstUnitEnd(s, i, alts); if u.Some? then u.value else i)
  {
    var u := FirstUnitEnd(s, i, alts);
    if u.Some? {
      var m :| 0 <= m < |alts| && UnitEnd(s, i, alts[m]) == u &&
        forall m' :: 0 <= m' < m ==> UnitEnd(s, i, alts[m']).None?;
      assert UnitEnd(s, i, alts[m]).Some?;
      var n :| 0 <= n < |alts| && UnitEnd(s, i, alts[n]) == Some(j) &&
        forall n' :: 0 <= n' < n ==> UnitEnd(s, i, alts[n']).None?;
      FirstMatchUnique(s, i, alts, m, n);
    }
  }

  lemma FirstUnitUnique(s: string, i: nat, j: nat)
    requires FirstUnit(s, i, j)
    ensures j == UnitCut(s, i)
  {
    FirstOfUnique(s, i, Units, j);
  }

  /** Each part of a greedy reading ends where the scanner's corresponding step ends. */
  lemma GreedyParts(s: string, p: nat, k: Cuts)
    requires p < |s| && IsDigit(s[p])
    requires Greedy(s, p, k)
    ensures k.digits == DigitsEnd(s, p)
    ensures k.group == GroupEnd(s, k.digits, ',')
    ensures k.range == GroupEnd(s, k.plus, '-')
    ensures k.space == SpacesEnd(s, k.range)
    ensures k.unit == UnitCut(s, k.space)
  {
    MaximalDigitsUnique(s, p, k.digits, DigitsEnd(s, p));
    GroupIsGreedy(s, k.digits, k.group, ',');
    GroupIsGreedy(s, k.plus, k.range, '-');
    SpacesUnique(s, k.range, k.space);
    FirstUnitUnique(s, k.space, k.unit);
  }

  /** Cuts whose every part ends where the scanner's step ends are the scanner's. */
  lemma ScanOfParts(s: string, p: nat, k: Cuts)
    requires p < |s| && IsDigit(s[p])
    requires k.digits == DigitsEnd(s, p)
    requires k.group == GroupEnd(s, k.digits, ',')
    requires k.plus == (if k.group < |s| && s[k.group] == '+' then k.group + 1 else k.group)
    requires k.range == GroupEnd(s, k.plus, '-')
    requires k.space == SpacesEnd(s, k.range)
    requires k.unit == UnitCut(s, k.space)
    ensures k == Scan(s, p)
  {
    var c := Scan(s, p);
    assert c.digits == k.digits;
    assert c.group == k.group;
    assert c.plus == k.plus;
    assert c.range == k.range;
    assert c.space == k.space;
    assert c.unit == k.unit;
  }

  /** The declarative conditions determine the cuts: the scanner is the only greedy reading. */
  lemma GreedyIsScan(s: string, p: nat, k: Cuts)
    requires p < |s| && IsDigit(s[p])
    requires Greedy(s, p, k)
    ensures k == Scan(s, p)
  {
    GreedyParts(s, p, k);
    ScanOfParts(s, p, k);
  }

  // ---------------------------------------------------------------------------
  // extractSpotlightValue

  /** The position of the first digit of `s`. */
  function FirstDigit(s: string): (r: Option<nat>)
    ensures r.None? <==> forall i :: 0 <= i < |s| ==> !IsDigit(s[i])
    ensures r.Some? ==> (r.value < |s| && IsDigit(s[r.value]) &&
      forall i :: 0 <= i < r.value ==> !IsDigit(s[i]))
  {
    if |s| == 0 then None
    else if IsDigit(s[0]) then Some(0)
    else match FirstDigit(s[1..])
      case None => None
      case Some(i) => Some(i + 1)
  }

  /** A match starts with a digit, so it is never the fallback "Real". */
  lemma DigitFirstIsNotReal(m: string)
    requires |m| > 0 && IsDigit(m[0])
    ensures m != "Real"
  {
    assert "Real"[0] == 'R';
  }

  /** extractSpotlightValue: the whole match, or "Real" when nothing matches. */
  function Spotlight(text: string): (r: string)
    ensures r == "Real" <==> forall i :: 0 <= i < |text| ==> !IsDigit(text[i])
    ensures r != "Real" ==> |r| > 0 && IsDigit(r[0])
  {
    match FirstDigit(text)
    case None => "Real"
    case Some(p) => MatchAt(text, p)
  }

  /** The text of the match that starts at digit position `p`. */
  function MatchAt(text: string, p: nat): (m: string)
    requires p < |text| && IsDigit(text[p])
    ensures |m| > 0 && IsDigit(m[0]) && m != "Real"
  {
    var k := Scan(text, p);
    var m := text[p..k.unit];
    assert m[0] == text[p];
    DigitFirstIsNotReal(m);
    m
  }

  /**
   * The spotlight of a text with digits is the leftmost greedy match: the
   * substring from the first digit to the end of the greedy reading there.
   */
  lemma SpotlightIsLeftmostGreedy(text: string, p: nat, k: Cuts)
    requires p < |text| && IsDigit(text[p]) && forall i :: 0 <= i < p ==> !IsDigit(text[i])
    requires Greedy(text, p, k)
    ensures k.unit <= |text| && Spotlight(text) == text[p..k.unit]
  {
    GreedyIsScan(text, p, k);
    var f := FirstDigit(text);
    assert f.Some? && f.value <= p;
    assert f == Some(p);
  }

  // Only the six time words take the optional `s`, matched without regard to
  // case; an `s` after another unit, or any other letter after a time word,
  // ends the match before it.

  /** "10xs": `x` takes no plural, so the match stops before the `s`. */
  lemma TimesSpotlight(s: string)
    requires s == "10xs"
    ensures Spotlight(s) == "10x"
  {
    TimesPrefix(s);
    assert s[..3] == "10x";
  }

  lemma TimesPrefix(s: string)
    requires |s| == 4 && s[0] == '1' && s[1] == '0' && s[2] == 'x'
    ensures Spotlight(s) == s[..3]
  {
    TimesGreedy(s);
    SpotlightIsLeftmostGreedy(s, 0, Cuts(2, 2, 2, 2, 2, 3));
  }

  lemma TimesGreedy(s: string)
    requires |s| == 4 && s[0] == '1' && s[1] == '0' && s[2] == 'x'
    ensures Greedy(s, 0, Cuts(2, 2, 2, 2, 2, 3))
  {
    assert MaximalDigits(s, 0, 2);
    assert !IsSpace(s[2]);
    TimesUnit(s);
  }

  lemma TimesUnit(s: string)
    requires |s| == 4 && s[2] == 'x'
    ensures FirstUnit(s, 2, 3)
  {
    assert UnitEnd(s, 2, Units[0]).None? && UnitEnd(s, 2, Units[1]).None? && UnitEnd(s, 2, Units[2]).None?;
    assert UnitEnd(s, 2, Units[3]).None? && UnitEnd(s, 2, Units[4]).None? && UnitEnd(s, 2, Units[5]).None?;
    assert WordAt(s, 2, "x");
    assert UnitEnd(s, 2, Units[6]) == Some(3);
  }

  /** "3 hour!": the time word matches without its optional `s`. */
  lemma HourSpotlight(s: string)
    requires s == "3 hour!"
    ensures Spotlight(s) == "3 hour"
  {
    var k := Cuts(1, 1, 1, 1, 2, 6);
    assert MaximalDigits(s, 0, 1);
    assert GreedyGroup(s, 1, 1, ',') && GreedyGroup(s, 1, 1, '-');
    assert IsSpace(s[1]) && !IsSpace(s[2]);
    assert WordAt(s, 2, "hour");
    assert UnitEnd(s, 2, Units[0]) == Some(6);
    assert FirstUnit(s, 2, 6);
    SpotlightIsLeftmostGreedy(s, 0, k);
    assert s[..6] == "3 hour";
  }

  /** "2 Weeks": the capital folds, and the plural `s` is taken. */
  lemma WeeksSpotlight(s: string)
    requires s == "2 Weeks"
    ensures Spotlight(s) == "2 Weeks"
  {
    WeeksGreedy(s);
    SpotlightIsLeftmostGreedy(s, 0, Cuts(1, 1, 1, 1, 2, 7));
    assert s[..7] == s;
  }

  lemma WeeksGreedy(s: string)
    requires |s| == 7 && s[0] == '2' && s[1] == ' '
    requires s[2] == 'W' && s[3] == 'e' && s[4] == 'e' && s[5] == 'k' && s[6] == 's'
    ensures Greedy(s, 0, Cuts(1, 1, 1, 1, 2, 7))
  {
    assert MaximalDigits(s, 0, 1);
    assert IsSpace(s[1]) && !IsSpace(s[2]);
    WeeksUnit(s);
  }

  lemma WeeksUnit(s: string)
    requires |s| == 7 && s[2] == 'W' && s[3] == 'e' && s[4] == 'e' && s[5] == 'k' && s[6] == 's'
    ensures FirstUnit(s, 2, 7)
  {
    assert Fold(s[2]) == 'w';
    assert "hour"[0] == 'h' && "minute"[0] == 'm' && "day"[0] == 'd';
    assert UnitEnd(s, 2, Units[0]).None? && UnitEnd(s, 2, Units[1]).None? && UnitEnd(s, 2, Units[2]).None?;
    assert WordAt(s, 2, "week");
    assert UnitEnd(s, 2, Units[3]) == Some(7);
  }

  /** The quote of the deck's predictive-maintenance story, split before its first digit. */
  const QuoteHead: string := "A model predicted failures "
  const QuoteSpot: string := "48 hours "
  const QuoteRest: string :=
    "ahead. The plant scheduled maintenance weekly. The model was accurate, but the workflow fit was wrong."
  const MaintenanceQuote: string := QuoteHead + QuoteSpot + QuoteRest

  /** The characters of "48 hours " at `p`, one by one. */
  predicate FortyEightHoursAt(q: string, p: nat) {
    p + 9 <= |q|
    && q[p] == '4' && q[p + 1] == '8' && q[p + 2] == ' '
    && q[p + 3] == 'h' && q[p + 4] == 'o' && q[p + 5] == 'u' && q[p + 6] == 'r' && q[p + 7] == 's'
    && q[p + 8] == ' '
  }

  lemma {:induction false} FortyEightHoursChars(q: string, p: nat)
    requires p + 9 <= |q| && q[p..p + 9] == "48 hours "
    ensures FortyEightHoursAt(q, p)
  {
    var w := q[p..p + 9];
    assert q[p] == w[0] && q[p + 1] == w[1] && q[p + 2] == w[2];
    assert q[p + 3] == w[3] && q[p + 4] == w[4] && q[p + 5] == w[5];
    assert q[p + 6] == w[6] && q[p + 7] == w[7] && q[p + 8] == w[8];
  }

  /** The greedy reading of "48 hours " at `p`: two digits, one space, "hour" and its plural s. */
  lemma FortyEightHoursCuts(q: string, p: nat)
    requires FortyEightHoursAt(q, p)
    ensures Greedy(q, p, Cuts(p + 2, p + 2, p + 2, p + 2, p + 3, p + 8))
  {
    assert MaximalDigits(q, p, p + 2);
    assert GreedyGroup(q, p + 2, p + 2, ',');
    assert GreedyGroup(q, p + 2, p + 2, '-');
    assert WordAt(q, p + 3, "hour") by {
      forall k | 0 <= k < 4
        ensures Fold(q[p + 3 + k]) == Fold("hour"[k])
      {
        assert q[p + 3 + k] == "hour"[k];
      }
    }
    assert UnitEnd(q, p + 3, Units[0]) == Some(p + 8);
    assert FirstUnit(q, p + 3, p + 8);
  }

  lemma {:induction false} FortyEightHoursMatch(q: string, p: nat)
    requires FortyEightHoursAt(q, p)
    ensures q[p..p + 8] == "48 hours"
  {
    forall i | 0 <= i < 8
      ensures q[p..p + 8][i] == "48 hours"[i]
    {
      assert q[p..p + 8][i] == q[p + i];
    }
  }

  /** Any text whose first digit starts "48 hours " spotlights "48 hours". */
  lemma FortyEightHours(q: string, p: nat)
    requires FortyEightHoursAt(q, p)
    requires forall i :: 0 <= i < p ==> !IsDigit(q[i])
    ensures Spotlight(q) == "48 hours"
  {
    FortyEightHoursCuts(q, p);
    SpotlightIsLeftmostGreedy(q, p, Cuts(p + 2, p + 2, p + 2, p + 2, p + 3, p + 8));
    FortyEightHoursMatch(q, p);
  }

  /** That quote spotlights "48 hours". */
  lemma MaintenanceQuoteSpotlight()
    ensures Spotlight(MaintenanceQuote) == "48 hours"
  {
    var q := MaintenanceQuote;
    assert forall i :: 0 <= i < |QuoteHead| ==> !IsDigit(QuoteHead[i]);
    assert q[27..36] == QuoteSpot;
    FortyEightHoursChars(q, 27);
    FortyEightHours(q, 27);
  }

  // ---------------------------------------------------------------------------
  // Layout and entrance

  datatype StoryLayout = QuoteFull | Split | NumberSpotlight | Editorial

  /** `slide.layout ?? 'default'`, with every unknown layout rendered as the editorial default. */
  function LayoutFor(layout: Option<string>): (l: StoryLayout)
    ensures l == QuoteFull <==> layout == Some("quote-full")
    ensures l == Split <==> layout == Some("split")
    ensures l == NumberSpotlight <==> layout == Some("number-spotlight")
  {
    match layout.GetOr("default")
    case "quote-full" => QuoteFull
    case "split" => Split
    case "number-spotlight" => NumberSpotlight
    case _ => Editorial
  }

  /** What a story slide shows: its layout, the quote (`slide.quote ?? ''`) and, in one layout, the spotlight. */
  datatype StoryView = StoryView(layout: StoryLayout, quote: string, spotlight: Option<string>)

  function View(layout: Option<string>, quote: Option<string>): (v: StoryView)
    ensures v.layout == LayoutFor(layout)
    ensures v.spotlight.Some? <==> v.layout == NumberSpotlight
    ensures v.spotlight.Some? ==> v.spotlight.value == Spotlight(v.quote)
    ensures v.quote == quote.GetOr("")
  {
    var l := LayoutFor(layout);
    StoryView(l, quote.GetOr(""), if l == NumberSpotlight then Some(Spotlight(quote.GetOr(""))) else None)
  }

  /**
   * The quote-full layout is never reached through the deck's dispatch: a
   * story slide with that layout is routed to the quote renderer instead.
   */
  lemma QuoteFullUnreachable(layout: Option<string>, animation: Option<string>)
    requires SlideRenderer.Dispatch("story", layout, animation) == SlideRenderer.StorySlide
    ensures LayoutFor(layout) != QuoteFull
  {
  }
}

=== FILE: visualization_slide.dfy ===
/**
 * The visualization renderer (src/components/slides/VisualizationSlide.tsx):
 * the lookup of the slide's visualization key in `visualizationMap` and the
 * child it renders.
 */
module VisualizationSlide {
  import opened Wrappers

  /** The ten visualization components. */
  datatype Visual =
    | MaturityModel | ImpactMatrix | AckuPipeline | AdoptionCurve | TrustEquation
    | Timeline | RiskFramework | RiskTiers | UseCaseTiers | CapabilityTiers

  /** `visualizationMap`: the map's own keys. */
  const Components: map<string, Visual> := map[
    "maturity-model" := MaturityModel,
    "impact-matrix" := ImpactMatrix,
    "acku-pipeline" := AckuPipeline,
    "adoption-curve" := AdoptionCurve,
    "trust-equation" := TrustEquation,
    "timeline" := Timeline,
    "risk-framework" := RiskFramework,
    "risk-tiers" := RiskTiers,
    "use-case-tiers" := UseCaseTiers,
    "capability-tiers" := CapabilityTiers
  ]

  /**
   * The properties every plain object literal inherits from `Object.prototype`
   * (section 20.1.3 of ECMA-262 and its Annex B.2.2). Indexing the map with one
   * of these names yields the inherited value, which is truthy.
   */
  const InheritedMembers: set<string> := {
    "constructor", "hasOwnProperty", "isPrototypeOf", "propertyIsEnumerable",
    "toLocaleString", "toString", "valueOf", "__proto__",
    "__defineGetter__", "__defineSetter__", "__lookupGetter__", "__lookupSetter__"
  }

  /** What `slide.visualization ? visualizationMap[slide.visualization] : null` yields. */
  datatype Found = Component(visual: Visual) | Inherited(name: string) | Nothing

  /** The lookup as written: an empty or absent key yields nothing, any other key reads the object, inherited members included. */
  function LookupAsWritten(key: Option<string>): (f: Found)
    ensures f.Component? <==> key.Some? && key.value in Components
    ensures f.Inherited? <==> key.Some? && key.value !in Components && key.value in InheritedMembers
  {
    if key.None? || key.value == "" then Nothing
    else if key.value in Components then Component(Components[key.value])
    else if key.value in InheritedMembers then Inherited(key.value)
    else Nothing
  }

  /** The own-key lookup the map's type promises: a component for its ten keys and nothing otherwise. */
  function Lookup(key: Option<string>): (v: Option<Visual>)
    ensures v.Some? <==> key.Some? && key.value in Components
    ensures v.Some? ==> Components[key.value] == v.value
  {
    if key.Some? && key.value in Components then Some(Components[key.value]) else None
  }

  /**
   * The as-written lookup hands a non-component to React for the key
   * "constructor": `Object` itself, where the own-key lookup finds nothing.
   */
  lemma InheritedMemberIsFound()
    ensures LookupAsWritten(Some("constructor")) == Inherited("constructor")
    ensures Lookup(Some("constructor")) == None
  {
  }

  /** Outside the inherited names the two lookups agree. */
  lemma LookupsAgree(key: Option<string>)
    requires key.None? || key.value !in InheritedMembers
    ensures LookupAsWritten(key) == (if Lookup(key).Some? then Component(Lookup(key).value) else Nothing)
  {
  }

  /** The rendered child: the component found, receiving the slide's own `isActive`. */
  datatype Child = Child(visual: Visual, isActive: bool)

  function ChildFor(key: Option<string>, isActive: bool): (c: Option<Child>)
    ensures c.Some? <==> key.Some? && key.value in Components
    ensures c.Some? ==> c.value.isActive == isActive && c.value.visual == Components[key.value]
  {
    match Lookup(key)
    case None => None
    case Some(v) => Some(Child(v, isActive))
  }
}

=== FILE: wrappers.dfy ===
/** Optional values: the model's rendering of TypeScript's `T | undefined` and `T | null`. */
module Wrappers {

  datatype Option<+T> = None | Some(value: T) {

    /** The value, or `default` when absent (TypeScript's `x ?? default`). */
    function GetOr(default: T): T {
      match this
      case Some(v) => v
      case None => default
    }
  }
}
